=== FILE: README.md ===
# Multi-SFP matching workflow, modelled in Dafny

This project models the selection pipeline of an RFP-response front end.
A run takes the candidate SFPs held by the workflow controller and puts them through a fixed sequence of stages:

1. load all candidates;
2. drop those whose deadline is fewer than 7 days away;
3. drop those whose requirements mention none of the critical keywords
   (`corrosion`, `uv`, `chemical`, `iso`, `astm`);
4. score each remaining SFP against every paint SKU of the live catalogue,
   keep its best SKU, rank by score and drop those scoring below 40;
5. keep the top 3;
6. price the shortlisted SFPs (material, +20% implementation, +10% support, +3%
   contingency, each rounded);
7. select the first shortlisted SFP, priced with its matched SKU.

A call made while the controller's in-flight flag is set does nothing. It logs a warning
and does nothing when there are no candidates. A thrown error in any stage is
caught, logged, and returns the controller to `NOT_STARTED`. `resetWorkflow`
clears everything except the candidates.

The project also models the three scoring libraries:
- `scoreSFP`, `evaluateAllSFPsForSKU` and `shortlistSFPs` of `src/lib/matching.js`;
- the live twelve-SKU catalogue and `evaluateAsianCatalog` of `src/lib/asianCatalog.js`;
- the legacy three-item catalogue and `evaluateCatalog` of `src/lib/catalog.js`.

Modules, in dependency order:
- `Js`: the JavaScript primitives the code relies on. These are
  `Math.round` and `Math.ceil` on exact quotients, `String.prototype.includes`,
  `toLowerCase` on ASCII, `split(' ')[0]`, `slice`, `Number(x) || d`, and a
  `map` whose callback may throw.
- `Seqs`: order-preserving filter/reject, subsequences and multisets.
- `Sorting`: the stable descending sort used by every `sort((a, b) => b.x - a.x)`.
- `Domain`: SFPs, SKUs and how requirements text is read.
- `Matching`, `AsianCatalog`, `Catalog`: the three scoring libraries.
- `Pipeline`: the stages of `simulateMultiSFPSteps` as pure functions over step states.
- `Workflow`: the controller. A run is modelled as the trace of controller
  states: the state after the start, and the state after each step body,
  including the synchronous scoring block.

A text field that JavaScript would lower-case is modelled as `Text`, which is
one of three cases:
- a string;
- a falsy value, read as `""`;
- a truthy non-string, whose `toLowerCase` throws a `TypeError`.

That thrown error is what reaches the controller's `catch`.

Some behaviours of the code as written are easy to misread:
- An SFP 6 days and 23 hours before its deadline passes the deadline filter,
  because `Math.ceil` gives 7. A candidate is dropped exactly when its deadline
  is at most six whole days away (`Pipeline.DeadlineBoundary`).
- A missing or unparsable deadline passes the deadline filter, because
  `NaN < 7` is false (`Pipeline.MissingDeadlineKept`).
- The phase `STEP_3_SCORING` is set before the synchronous scoring block and
  replaced by `FINAL_SHORTLIST` right after it, with no `await` in between.
  The trace records the state after that block, still at `STEP_3_SCORING`,
  but no render can show it.
- The comment on `shortlistSFPs` mentions a tie-breaker by title. None is
  implemented: ties keep their input order, because the sort is stable.
- The full-name half of the compliance test in `scoreSFP` never adds a match
  (`Matching.FullNameTestRedundant`).
- The `coverage:` test in `evaluateCatalog` never adds a match
  (`Catalog.CoverageColonRedundant`).

## Model

| member | source | states |
|---|---|---|
| Js.RoundDiv | src/context/WorkflowContext.js:264-267 | `Math.round` of an exact quotient: the integer within one half of n/d, with ties rounded up |
| Js.RoundShift | src/lib/asianCatalog.js:171 | rounding commutes with adding a whole number |
| Js.RoundMonotone | src/lib/matching.js:44 | rounding never reverses the order of two quotients |
| Js.CeilDiv | src/context/WorkflowContext.js:110 | `Math.ceil` of an exact quotient: the least integer r with n <= d*r |
| Js.NumberOr | src/context/WorkflowContext.js:186 | `Number(x) \|\| d` is the number exactly when it is present and non-zero, and the default otherwise |
| Js.Take | src/context/WorkflowContext.js:239 | `slice(0, n)` is a prefix of length min(n, length) |
| Js.Drop | src/context/WorkflowContext.js:240 | `slice(n)` is exactly what `slice(0, n)` leaves over |
| Js.Collect | src/context/WorkflowContext.js:176-194 | a `map` whose callback may throw throws exactly when some element's callback throws; otherwise it keeps every value in order |
| Js.Lower | src/lib/matching.js:24 | lower-casing keeps the length and maps each character |
| Js.LowerOrEmpty | src/lib/matching.js:56 | `(x \|\| '').toLowerCase()` throws exactly for a truthy non-string; a string gives its lower-cased text and a falsy value gives the empty text |
| Js.LeadingWord | src/lib/matching.js:47 | `split(' ')[0]` is the longest space-free prefix |
| Js.LeadingWordLower | src/lib/asianCatalog.js:129 | taking the leading word and lower-casing commute |
| Js.IncludesTransitive | src/lib/matching.js:24 | an occurrence inside an occurrence is an occurrence |
| Js.LowerIncludes | src/lib/matching.js:24 | lower-casing keeps every occurrence |
| Js.JoinWithSpace | src/lib/matching.js:24 | `join(' ')` gives the empty text for no items, the item itself for one, and otherwise the first item, one space and the join of the rest; every item occurs in the result |
| Js.IncludesPrefix | src/lib/matching.js:47 | a text that includes a pattern includes each of its prefixes |
| Seqs.OrderedPartition | src/context/WorkflowContext.js:108-116 | a `forEach` that pushes each item to `passed` or `eliminated` splits the input into two order-preserving parts that together are a permutation of it |
| Seqs.FilterMembers | src/context/WorkflowContext.js:108-116 | an item is passed exactly when it is in the input and meets the test, and eliminated exactly when it is in the input and fails it |
| Seqs.MapMultiset | src/context/WorkflowContext.js:214 | mapping two permutations of each other gives permutations of each other |
| Sorting.SortDesc | src/context/WorkflowContext.js:199 | the descending sort is a permutation of its input, ordered by non-increasing key |
| Sorting.SortDescStable | src/lib/matching.js:88-89 | the sort is stable: items with equal keys keep their input order |
| Sorting.StableSortUnique | src/lib/matching.js:88-89 | any stable descending permutation of the input equals the model's sort, so the model's order is the order of a stable `Array.prototype.sort` |
| Domain.RequirementsText | src/lib/matching.js:24 | an array of requirements is joined with spaces and lower-cased, a string is lower-cased, a falsy value reads as the empty text; reading throws exactly for a truthy non-string value |
| Domain.KeywordInAnyLine | src/lib/matching.js:24 | a keyword in any one line of a requirements array is found in the joined, lower-cased text |
| Matching.QualitativeToScore | src/lib/matching.js:11-18 | the rating is 3 exactly when the text contains "very"; 2 exactly when it contains "high" but not "very"; 1 exactly when it contains "medium" but neither of the others; 0 exactly when it contains none |
| Matching.QualitativeIgnoresCase | src/lib/matching.js:13 | the rating does not depend on letter case |
| Matching.QualitativeExamples | src/lib/matching.js:11-18 | "Very High", "High", "Medium" and "Low" rate 3, 2, 1 and 0 |
| Matching.KeywordPoints | src/lib/matching.js:29-42 | a mentioned keyword contributes twice the rating of its property, 0 to 6 points; an unmentioned one contributes nothing |
| Matching.SpecPoints | src/lib/matching.js:29-42 | the points are the sum of the corrosion keyword judged on `corrosionResistance`, the UV keywords on `uvResistance` and the chemical keyword on `durability`; at most 18 |
| Matching.SpecScore | src/lib/matching.js:44 | the spec score is 0 to 40 and is the nearest integer to 40 * min(points, 12) / 12, with ties rounded up; it is 0 exactly when there are no points, and saturates at 40 from 12 points |
| Matching.SpecScoreMonotone | src/lib/matching.js:44 | more spec points never lower the spec score |
| Matching.ComplianceMatches | src/lib/matching.js:47 | the compliance matches are exactly the SKU's standards mentioned in the requirements, in catalogue order, and their number is the number of such standards |
| Matching.ComplianceScore | src/lib/matching.js:48 | ten points per matched standard, for at most three standards |
| Matching.FullNameTestRedundant | src/lib/matching.js:47 | a standard is mentioned exactly when its leading word is, so the full-name test adds nothing |
| Matching.QuantityScore | src/lib/matching.js:52-53 | 20 points exactly when some pack size fits the quantity, 8 exactly when none fits and the quantity is positive, 0 otherwise |
| Matching.QuantityScoreMonotone | src/lib/matching.js:52-53 | a larger quantity never lowers the quantity score |
| Matching.ApplicationText | src/lib/matching.js:56 | throws exactly when the description or the title is a truthy non-string; otherwise it is the lower-cased description, one space, and the lower-cased title, a missing field reading as empty |
| Matching.ApplicationScore | src/lib/matching.js:57-58 | 10 points exactly when the leading word of some SKU application occurs in the text, else 0 |
| Matching.ScoreTexts | src/lib/matching.js:21-73 | the total is the sum of the four part scores and lies in 0 to 100. The spec score is `SpecScore` of the spec points, the compliance matches are exactly the mentioned standards, the quantity score is the 20/8/0 `QuantityScore`, and the application score is 10 exactly when an application is mentioned |
| Matching.ScoreSfp | src/lib/matching.js:21-73 | scoring succeeds exactly when the SFP's texts are readable. It then scores the joined, lower-cased requirements and the description-and-title text, with the quantity defaulting to 0, so the quantity score is 20/8/0 for that quantity; the score is 0 to 100 and equals its breakdown's total |
| Matching.ScoreMonotoneInQuantity | src/lib/matching.js:52-53 | with the texts fixed, a larger quantity never lowers the score |
| Matching.ScoreExample | src/lib/matching.js:21-73 | a worked SFP with one standard scores 43 = 13 + 10 + 20 + 0 |
| Matching.ScoreEach | src/lib/matching.js:78-87 | the per-SFP `map` succeeds exactly when every SFP is readable; then entry i carries SFP i (its id and title are read off it) and exactly the score and breakdown `scoreSFP` gives it |
| Matching.EvaluateAllSfpsForSku | src/lib/matching.js:76-91 | succeeds exactly when every SFP is readable; the result is a stable descending permutation of the per-SFP evaluations |
| Matching.ShortlistSfps | src/lib/matching.js:94-102 | the shortlist is a subsequence of the input. With some entry at or above the minimum score, it is a prefix of those entries, and for a non-negative topN exactly the first topN of them; with none, it is a prefix of all entries, the first topN |
| Matching.ShortlistDefault | src/lib/matching.js:94-102 | with the default options: the first three entries scoring at least 30 when some entry does, and the first three entries otherwise |
| Matching.ShortlistWith | src/lib/matching.js:94-102 | with no options object the defaults apply; with an object, a missing `minScore` keeps the first topN of all results, and a missing `topN` keeps every qualifying entry, or every entry when none qualifies |
| Matching.ShortlistOfRankedIsPrefix | src/lib/matching.js:94-102 | on a ranked input the shortlist is a prefix of the ranking |
| AsianCatalog.CatalogWellFormed | src/lib/asianCatalog.js:2-123 | the live catalogue has twelve SKUs, each with a positive unit cost, positive pack sizes, and at least one standard and one application |
| AsianCatalog.CatalogShape | src/lib/asianCatalog.js:2-123 | the live catalogue has twelve SKUs, at least one of which lists an application |
| AsianCatalog.CatalogCostRange | src/lib/asianCatalog.js:2-123 | every cost per litre lies between 150 and 820, and both bounds are attained |
| AsianCatalog.ComplianceMatch | src/lib/asianCatalog.js:125-132 | the compliance count is 0 to 3 and at most the number of standards; it is 0 exactly when no standard is mentioned |
| AsianCatalog.ComplianceAgreesWithLiveScorer | src/lib/asianCatalog.js:125-132 | `complianceMatch` counts the same matches as `scoreSFP`, so ten times the count is `scoreSFP`'s compliance score |
| AsianCatalog.MatchedNotes | src/lib/asianCatalog.js:142-158 | at most six matched notes; a note is present exactly when its test passes, and it carries the SKU's own rating, coverage or standards (`MatchedNoteHolds`) |
| AsianCatalog.MissingNotes | src/lib/asianCatalog.js:143-159 | each missing note appears exactly when its condition fails |
| AsianCatalog.WeightedScore | src/lib/asianCatalog.js:165-171 | the weighted score is 5 to 100, is the nearest integer to the weighted sum of its four parts with ties rounded up, and is at least 15 with a fitting pack or an application bonus |
| AsianCatalog.BonusIsTenPoints | src/lib/asianCatalog.js:162-171 | the application bonus adds exactly ten points |
| AsianCatalog.EvaluateItem | src/lib/asianCatalog.js:138-183 | the match copies the SKU's fields. Its notes are the matched and missing notes of the lower-cased requirements, so each note is present exactly when its condition holds. Its score is the weighted score of the capped note count, the compliance count, the pack fit and the application bonus, and lies in 5 to 100 |
| AsianCatalog.ApplicationBonusIsTenPoints | src/lib/asianCatalog.js:162-171 | on an item, a matching application adds exactly ten points and leaves the matched notes unchanged |
| AsianCatalog.ScoreMonotoneInQuantity | src/lib/asianCatalog.js:163-171 | a larger quantity never lowers an item's score |
| AsianCatalog.RequirementsSource | src/lib/asianCatalog.js:135-143 | an array is joined with spaces and a falsy value reads as empty; a truthy non-string is kept by `\|\| ''` and is the one case whose `toLowerCase` throws at line 143; lower-cased, the text equals the matcher's requirements text |
| Sorting.Rank | src/lib/asianCatalog.js:186 | the descending-score sort (the same comparator as catalog.js:122 and WorkflowContext.js:199) is a stable descending permutation holding exactly the input entries |
| AsianCatalog.Evaluate | src/lib/asianCatalog.js:134-188 | an empty catalogue yields no matches. Otherwise evaluation throws exactly for non-string requirements, or for a non-string application when some item lists an application; otherwise it yields every item's match, ranked stably by descending score |
| AsianCatalog.EvaluateAsianCatalog | src/lib/asianCatalog.js:134-188 | on the live catalogue: the same throw condition, and twelve matches ranked by descending score |
| Catalog.LegacyItemsAreLiveItems | src/lib/catalog.js:2-42 | the legacy catalogue has three items; each has the SKU code, standards and unit cost of the live entry at the same position, and a pack size that entry offers |
| Catalog.ScoreCompliance | src/lib/catalog.js:44-52 | the compliance count is 0 to 3 and at most the number of standards; it is 0 exactly when no leading word is mentioned |
| Catalog.ComplianceAgreesWithOtherScorers | src/lib/catalog.js:44-52 | the legacy count equals the live catalogue's count |
| Catalog.CoverageColonRedundant | src/lib/catalog.js:77 | the coverage test holds exactly when "coverage" or "sq.m" occurs, so the `coverage:` alternative adds nothing |
| Catalog.MatchedNotes | src/lib/catalog.js:63-99 | at most seven notes; a note is present exactly when its test passes, and it carries the item's own rating, coverage, standards or pack size (`MatchedNoteHolds`) |
| Catalog.MissingNotes | src/lib/catalog.js:63-92 | each missing note appears exactly when its condition fails |
| Catalog.WeightedScore | src/lib/catalog.js:101-109 | rounding never moves the weighted sum. The score is 8 per spec point, 10 per compliance match, 20 for a suitable pack or 5 otherwise, and 10 for an application fit; it lies between 5 and 100 |
| Catalog.EvaluateItem | src/lib/catalog.js:55-118 | the match copies the item's fields. Its notes are the matched and missing notes of the lower-cased requirements, so each note, including the undersized-pack note, is present exactly when its condition holds. Its score is the weighted score of the capped note count, the compliance count, the pack fit and the exterior fit, and lies in 5 to 100 |
| Catalog.NoApplicationCapsScore | src/lib/catalog.js:94-109 | without an application no item scores above 90 |
| Catalog.Evaluate | src/lib/catalog.js:54-124 | an empty catalogue yields no matches. Otherwise evaluation throws exactly for non-string requirements or application, and otherwise yields every item's match, ranked stably by descending score |
| Catalog.EvaluateCatalog | src/lib/catalog.js:54-124 | on the legacy catalogue: the same throw condition, and one match per item ranked by descending score |
| Pipeline.InitialLoad | src/context/WorkflowContext.js:93-98 | the initial step keeps every candidate and eliminates none |
| Pipeline.Split | src/context/WorkflowContext.js:108-119 | a filter step's active list and eliminated list are the ordered partition of its input by the test |
| Pipeline.DaysRemaining | src/context/WorkflowContext.js:109-110 | the days remaining are the ceiling of the time left in days, and are absent for an unparsable deadline |
| Pipeline.DeadlineBoundary | src/context/WorkflowContext.js:110-111 | a dated SFP passes exactly when more than six whole days remain |
| Pipeline.MissingDeadlineKept | src/context/WorkflowContext.js:109-111 | an SFP without a parsable deadline passes |
| Pipeline.DeadlineStage | src/context/WorkflowContext.js:104-118 | the step is an ordered partition of its input: the passed SFPs are, in order, those meeting the deadline, the eliminated ones, in order, those failing it, and each eliminated entry records its own SFP's days remaining, fewer than 7 |
| Pipeline.DeadlineDropReasons | src/context/WorkflowContext.js:111-112 | every eliminated entry comes from the input, fails the deadline, and records its own SFP's days remaining, fewer than 7 |
| Pipeline.MissingRequirementsDropped | src/context/WorkflowContext.js:132-137 | an SFP whose requirements mention none of the keywords fails the spec filter |
| Pipeline.SpecStage | src/context/WorkflowContext.js:131-142 | throws exactly when some SFP has non-string requirements; otherwise it is an ordered partition passing, in order, the SFPs that mention a keyword and eliminating, in order and with duplicates kept, those that do not, each for missing keywords |
| Pipeline.FirstBest | src/context/WorkflowContext.js:177-183 | the kept index holds the highest score, strictly above every earlier score and above 0; no index is kept exactly when no score is positive |
| Pipeline.BestOf | src/context/WorkflowContext.js:173-183 | a kept SKU is from the catalogue, has a positive score, and carries exactly the score and breakdown `scoreSFP` gives it |
| Pipeline.BestOfIsBest | src/context/WorkflowContext.js:173-183 | the kept SKU is the first catalogue SKU of highest positive score |
| Pipeline.ScoreOne | src/context/WorkflowContext.js:173-195 | scoring one SFP throws exactly when the catalogue is non-empty and the SFP is unreadable. Otherwise it keeps the SFP, has score 0 exactly when no SKU was kept, and estimates cost as the kept SKU's price times the quantity |
| Pipeline.ScoreOneIsBest | src/context/WorkflowContext.js:176-183 | the kept SKU is the first catalogue SKU of highest positive `scoreSFP` score, and the kept score is that maximum |
| Pipeline.ScoreAll | src/context/WorkflowContext.js:173-196 | scoring all SFPs throws exactly when some SFP would throw; otherwise it holds one entry per SFP, in order |
| Pipeline.Threshold | src/context/WorkflowContext.js:203-215 | passed entries are exactly the ranked entries scoring at least 40, in rank order; the eliminated entries are, in rank order, the others, each with its own SFP and score below 40 |
| Pipeline.ScoringStage | src/context/WorkflowContext.js:173-218 | throws exactly when the catalogue is non-empty and some SFP is unreadable; otherwise its lists partition the input, and every passed entry scores at least 40 and has a SKU |
| Pipeline.ScoringPartition | src/context/WorkflowContext.js:204-214 | the passed and dropped SFPs together are a permutation of the scored SFPs |
| Pipeline.ShortlistStage | src/context/WorkflowContext.js:238-244 | the shortlist is the first min(3, n) SFPs, and the rest are eliminated as ranked beyond the top 3 |
| Pipeline.QuantityOf | src/context/WorkflowContext.js:186 | the quantity is the SFP's when present and non-zero, and 1000 otherwise; it is never 0 |
| Pipeline.Price | src/context/WorkflowContext.js:262-268 | the material cost is price times quantity; implementation, support and contingency are 20%, 10% and 3% of it, each rounded; the total is their sum |
| Pipeline.MarkupTotal | src/context/WorkflowContext.js:264-268 | the total is within 1.5 of 133% of the material cost |
| Pipeline.PriceExample | src/context/WorkflowContext.js:262-268 | 1000 litres at 420 cost 420000 + 84000 + 42000 + 12600 = 558600 |
| Pipeline.FindById | src/context/WorkflowContext.js:260 | `find` by id returns an entry with that id, and nothing exactly when no entry has it |
| Pipeline.PriceOne | src/context/WorkflowContext.js:259-283 | an SFP is priced exactly when the first scored entry with its id has a SKU. The price carries the SFP's id and title, that SKU's code, name and cost per litre, and the SFP's quantity, and prices the quantity at that cost |
| Pipeline.PricingStage | src/context/WorkflowContext.js:258-290 | the prices of exactly those shortlisted SFPs that can be priced, in shortlist order; one for each when all are found |
| Pipeline.PricedOnly | src/context/WorkflowContext.js:261-289 | of the per-SFP outcomes, exactly the present prices are kept, in order; every one when all SFPs are priced |
| Pipeline.ShortlistFullyPriced | src/context/WorkflowContext.js:253-290 | after the threshold step, every shortlisted SFP is priced |
| Pipeline.AssembleFinal | src/context/WorkflowContext.js:307-350 | the final selection is the first shortlisted SFP. It carries the score and SKU of the first scored entry with its id (`FindById`), the default technical fields with that SKU's properties, and the price of that SKU at its quantity. There is none exactly when the shortlist is empty or that entry is missing |
| Pipeline.FinalSelectedIffShortlisted | src/context/WorkflowContext.js:307-312 | after the threshold step, a final selection exists exactly when the shortlist is non-empty |
| Workflow.ResetWorkflow | src/context/WorkflowContext.js:386-397 | reset keeps the candidates and clears the phase, the in-flight flag, the logs, the step states and both selections |
| Workflow.RunAfterReset | src/context/WorkflowContext.js:386-397 | after a reset, a call with candidates starts a run, logs the start entry first, and ends idle, Completed or `NOT_STARTED` |
| Workflow.Start | src/context/WorkflowContext.js:66-76 | starting keeps the candidates, sets the in-flight flag and `LOADING_SFPS`, clears both selections and the step states, and leaves only the start entry in the log |
| Workflow.Catch | src/context/WorkflowContext.js:81-85 | a caught error appends an error entry, clears the in-flight flag, returns to `NOT_STARTED`, and keeps the recorded step states |
| Workflow.Complete | src/context/WorkflowContext.js:302-351 | completion keeps the candidates, clears the in-flight flag, and sets the final selection. An SFP is selected exactly when a final selection exists, and it is that selection's SFP |
| Workflow.RunStages | src/context/WorkflowContext.js:88-357 | the run loads every candidate and runs the deadline filter on them; it stops at the spec filter exactly when that filter throws, and at scoring exactly when the filter succeeds and scoring throws. Each stage that ran is that stage's result on what the one before left active, the final selection and the priced count come from the passed entries and the shortlist, and each stage's lists partition the previous active list |
| Workflow.TraceOf | src/context/WorkflowContext.js:88-357 | the trace has 3 states when the spec filter throws, 5 when scoring throws and 8 otherwise; its last state is idle, and Completed exactly for a finished run |
| Workflow.RunStagesSelectFirst | src/context/WorkflowContext.js:233-350 | a finished run selects exactly when some SFP passed the threshold, and the selection is the first shortlisted SFP |
| Workflow.ExecuteWorkflow | src/context/WorkflowContext.js:56-86 | a call while executing changes nothing; a call without candidates only logs a warning; no call changes the candidates |
| Workflow.RunShape | src/context/WorkflowContext.js:56-86 | a started run begins with the start state. Each later state keeps the candidates and extends the previous log; only the last is idle. Each keeps the phase or moves it one step along `WORKFLOW_PHASES`, or falls back to `NOT_STARTED`, and its step states partition the previous active list. The run ends Completed or, after a caught error, `NOT_STARTED` |
| Workflow.ExecuteWorkflowEnds | src/context/WorkflowContext.js:56-86 | a started run leaves the controller idle, Completed or `NOT_STARTED`, with a final selection only when Completed |
| Workflow.ExecuteWorkflowLogsStart | src/context/WorkflowContext.js:66-76 | a started run's log opens with the start entry counting the candidates |
| Workflow.InFlightCallIgnored | src/context/WorkflowContext.js:57 | a call made at any state of the run before the run ends changes nothing |
| Workflow.RunCompletesIff | src/context/WorkflowContext.js:78-85 | a started run ends Completed exactly when neither the spec filter nor the scoring step throws |
| Workflow.ReadableRunCompletes | src/context/WorkflowContext.js:78-85 | with readable candidates, a started run always completes |
| Workflow.ExecuteWorkflowSelects | src/context/WorkflowContext.js:302-350 | after a completed run, a final selection exists exactly when some SFP passed the threshold; it is the first shortlisted SFP, which is also the selected SFP |

## Left out

- React plumbing is left out (the hooks, the context value, `selectedRFP` as an object, `executionId`, `workflowSteps`, `currentStepIndex`, `agentOutputs`). Only the state the run logic reads or writes is modelled.
- Workflow.ExecuteWorkflow: takes the catalogue as a parameter; the application always passes `AsianCatalog.Items()`. It reads the in-flight flag at call time. In the component, `executeWorkflow` sees the flag captured by its `useCallback` closure, so two calls through one closure before a re-render would both start; that is not modelled.
- Timers, delays and the speed setting are left out. The awaited steps run in order, and concurrent calls are modelled as calls made at one of the run's recorded states.
- `executeStep`'s early termination on a `null` output is left out, because no step generator of this run returns `null`.
- Log text and timestamps are left out. Each log entry is an event constructor carrying the numbers it interpolates, with its severity.
- `new Date()` and date parsing are left out. The clock is a parameter `now` in epoch milliseconds, and a deadline is its epoch value, or None when it cannot be parsed.
- Floating point is left out. `Math.round` and `Math.ceil` act on exact quotients of integers, and prices, quantities and pack sizes are integers. `0.2 * m` and the other markups are computed exactly, so a binary-rounding difference at a .5 boundary is not modelled.
- Pipeline.FindById: SFP ids are strings. An SFP without an id, whose lookup `undefined === undefined` would match any other id-less entry, is not modelled.
- Matching.ShortlistWith: an option field is either a number or missing. A non-numeric `topN` or `minScore` (a string, `null`, `NaN`) is not modelled, and neither is an explicit `null` options object, for which the destructuring at line 94 throws.
- Requirements arrays are lists of strings. A non-string array element (joined by `Array.prototype.join`) is not modelled.
- The sales-agent defaults in the final assembly are constants (`project_type` and `compliance_requirements` are never set by this run).
- `setCandidateSFPs` is left out, as are the fetching of SFPs (axios), and the pages and components that display the results.
- AsianCatalog.EvaluateAsianCatalog: states only the throw condition, the length and the order. The contents are stated by `AsianCatalog.Evaluate` for any non-empty catalogue, of which it is the instance on the live catalogue.
- Catalog.EvaluateCatalog: states only the throw condition, the length and the order. The contents are stated by `Catalog.Evaluate`, of which it is the instance on the legacy catalogue.
- Pipeline.MarkupTotal: states the total only within 1.5 of 133% of the material cost, because the three markups are rounded separately.

=== FILE: asian_catalog.dfy ===
/**
 * The live product catalogue (src/lib/asianCatalog.js): twelve paint SKUs
 * the workflow scores every SFP against, and the catalogue-side evaluator
 * `evaluateAsianCatalog`, a 50/25/15/10 weighted score of every SKU
 * against one requirements text, ranked by score.
 */
module AsianCatalog {
  import opened Js
  import opened Domain
  import Seqs
  import Sorting
  import Matching

  // ------------------------------------------------------------ the table

  /** `ASIAN_CATALOG`, in file order. */
  function Items(): (r: seq<Sku>)
    ensures |r| == 12
  {
    [ Sku("AP-EXT-IC-20L-001", "Industrial Exterior Protective Paint", "Exterior / Industrial",
          Properties("High", "High", "High", 8),
          ["ISO 12944", "ASTM D523"], 420, [20, 200],
          ["Industrial buildings", "Infrastructure projects", "Coastal facilities"]),
      Sku("AP-EPX-PRT-10L-014", "Epoxy Protective Coating", "Protective / Industrial",
          Properties("Very High", "Low", "Very High", 6),
          ["ISO 1461", "ASTM D4541"], 680, [10, 50],
          ["Chemical storage tanks", "Pipelines", "Industrial floors"]),
      Sku("AP-IND-ECO-20L-009", "Economy Industrial Coating", "Industrial / Economy",
          Properties("Medium", "Medium", "Medium", 7),
          ["Basic ISO"], 310, [20, 200],
          ["Warehouse interiors", "Non-critical infrastructure"]),
      Sku("AP-EXT-PRM-20L-002", "Premium Exterior Finish", "Exterior",
          Properties("High", "Very High", "High", 9),
          ["ISO 12944", "Environmental Safe Coatings"], 520, [20],
          ["Architectural facades", "Commercial exteriors"]),
      Sku("AP-INT-PLUS-5L-011", "Interior Durable Emulsion", "Interior",
          Properties("Low", "Low", "High", 10),
          ["Low VOC"], 210, [5, 20],
          ["Office interiors", "Residential interiors"]),
      Sku("AP-ANTI-CORR-DR-200L-020", "Anti-Corrosive Primer (Drum)", "Protective / Industrial",
          Properties("Very High", "Low", "High", 5),
          ["ASTM D714", "ISO 12944"], 480, [200],
          ["Structural steel", "Bridges", "Offshore platforms"]),
      Sku("AP-UV-SHIELD-4L-033", "UV Stabilized Topcoat", "Exterior",
          Properties("Medium", "Very High", "High", 8),
          ["ASTM D523"], 610, [4, 20],
          ["Facade coatings", "Solar-exposed structures"]),
      Sku("AP-CHEM-RES-10L-044", "Chemical Resistant Coating", "Protective",
          Properties("High", "Low", "Very High", 6),
          ["ISO 1461", "Chemical Safety Std"], 700, [10, 50],
          ["Chemical plants", "Storage tanks"]),
      Sku("AP-FIRE-RET-20L-055", "Fire Retardant Coating", "Protective",
          Properties("Medium", "Medium", "High", 6),
          ["Fire Safety Std", "ISO 9001"], 750, [20],
          ["Structural steel", "Large enclosures"]),
      Sku("AP-ECON-EXT-20L-066", "Economy Exterior Coating", "Exterior / Economy",
          Properties("Medium", "Medium", "Medium", 7),
          ["Basic ISO"], 330, [20],
          ["Low-cost housing", "Non-critical exteriors"]),
      Sku("AP-MARINE-COAT-20L-077", "Marine Grade Coating", "Protective / Exterior",
          Properties("Very High", "High", "Very High", 6),
          ["ISO 12944", "Marine Coating Std"], 820, [20, 200],
          ["Ships", "Offshore structures", "Coastal installations"]),
      Sku("AP-INT-ECO-1L-088", "Budget Interior Emulsion", "Interior / Economy",
          Properties("Low", "Low", "Medium", 11),
          ["Low VOC"], 150, [1, 5],
          ["Residential interiors"])
    ]
  }

  predicate WellFormedSku(s: Sku) {
    && s.costPerLiter > 0
    && |s.packSizesL| > 0
    && (forall i :: 0 <= i < |s.packSizesL| ==> s.packSizesL[i] > 0)
    && |s.compliance| > 0
    && |s.applications| > 0
  }

  /**
   * Every catalogue entry has a positive unit cost, at least one positive
   * pack size, at least one standard and at least one application.
   */
  lemma CatalogWellFormed()
    ensures |Items()| == 12
    ensures forall i :: 0 <= i < |Items()| ==> WellFormedSku(Items()[i])
  {
  }

  /** Twelve entries, of which at least one lists an application. */
  lemma CatalogShape()
    ensures |Items()| == 12 && ListsApplications(Items())
  {
    assert Items()[0].applications != [];
  }

  /** The cheapest entry costs 150 per litre; the dearest 820. */
  lemma CatalogCostRange()
    ensures forall i :: 0 <= i < |Items()| ==> 150 <= Items()[i].costPerLiter <= 820
    ensures Items()[11].costPerLiter == 150 && Items()[10].costPerLiter == 820
  {
  }

  // ----------------------------------------------------------- compliance

  /**
   * `complianceMatch`: the number of standards named in the requirements
   * (by leading word or full name), capped at 3.
   */
  function ComplianceMatch(requirementsText: string, list: seq<string>): (r: int)
    ensures 0 <= r <= 3 && r <= |list|
    ensures r == 0 <==> forall i :: 0 <= i < |list| ==>
                          !StandardMentioned(Lower(requirementsText), list[i])
  {
    Min(Seqs.Count(list, StandardTest(Lower(requirementsText))), 3)
  }

  /**
   * The catalogue-side compliance count and the live scorer's agree: ten
   * live points per standard this evaluator counts.
   */
  lemma ComplianceAgreesWithLiveScorer(requirementsText: string, list: seq<string>)
    ensures 10 * ComplianceMatch(requirementsText, list)
         == Matching.ComplianceScore(|Matching.ComplianceMatches(list, Lower(requirementsText))|)
  {
    Seqs.CountIsFilterSize(list, StandardTest(Lower(requirementsText)));
  }

  // ------------------------------------------------------------ evaluation

  /** The strings pushed to `matchedSpecs` and `missingSpecs`. */
  datatype Note =
    | CorrosionNote(rating: string)
    | UvNote(rating: string)
    | ChemicalNote(rating: string)
    | CoverageNote(coverage: int)
    | ComplianceNote(standards: seq<string>)
    | PackSizeSuitable
    | CorrosionUnspecified
    | ComplianceMismatch
    | PackSizeUndersized

  /** One entry of `evaluateAsianCatalog`'s result. */
  datatype ProductMatch = ProductMatch(
    sku: string,
    productName: string,
    category: string,
    matchScore: int,
    matchedSpecs: seq<Note>,
    missingSpecs: seq<Note>,
    costPerLiter: int,
    properties: Properties,
    applications: seq<string>)

  function MatchScore(m: ProductMatch): int { m.matchScore }

  /**
   * The application bonus: a non-empty application whose lower-cased text
   * contains the leading word of one of the SKU's applications.
   */
  predicate AppBonus(apps: seq<string>, app: string) {
    app != "" && Matching.ApplicationMentioned(apps, Lower(app))
  }

  /** `durability || corrosionResistance`. */
  function ChemicalRating(p: Properties): string {
    if p.durability != "" then p.durability else p.corrosionResistance
  }

  /**
   * When each matched note is pushed: a note carries the SKU's own value
   * for its property, and appears exactly when its test passes.
   */
  predicate MatchedNoteHolds(item: Sku, req: string, comp: int, quantity: int, m: Note) {
    var p := item.properties;
    match m
    case CorrosionNote(x) => x == p.corrosionResistance && Matching.MentionsCorrosion(req)
    case UvNote(x) => x == p.uvResistance && Matching.MentionsUv(req)
    case ChemicalNote(x) => x == ChemicalRating(p) && Matching.MentionsChemical(req)
    case CoverageNote(x) => x == p.coverage && Includes(req, "coverage")
    case ComplianceNote(x) => x == item.compliance && comp > 0
    case PackSizeSuitable => PackFits(item.packSizesL, quantity)
    case _ => false
  }

  function MatchedNotes(item: Sku, req: string, comp: int, quantity: int): (r: seq<Note>)
    ensures |r| <= 6
    ensures forall m :: m in r <==> MatchedNoteHolds(item, req, comp, quantity, m)
    ensures PackSizeSuitable in r <==> PackFits(item.packSizesL, quantity)
  {
    NoteList(Matching.MentionsCorrosion(req), CorrosionNote(item.properties.corrosionResistance),
             Matching.MentionsUv(req), UvNote(item.properties.uvResistance),
             Matching.MentionsChemical(req), ChemicalNote(ChemicalRating(item.properties)),
             Includes(req, "coverage"), CoverageNote(item.properties.coverage),
             comp > 0, ComplianceNote(item.compliance),
             PackFits(item.packSizesL, quantity), PackSizeSuitable)
  }

  /** The notes whose conditions hold, in the order the source pushes them. */
  function NoteList(c1: bool, n1: Note, c2: bool, n2: Note, c3: bool, n3: Note,
                    c4: bool, n4: Note, c5: bool, n5: Note, c6: bool, n6: Note): (r: seq<Note>)
    ensures |r| <= 6
    ensures forall m :: m in r <==> (c1 && m == n1) || (c2 && m == n2) || (c3 && m == n3)
                                    || (c4 && m == n4) || (c5 && m == n5) || (c6 && m == n6)
  {
    Seqs.When(c1, n1) + Seqs.When(c2, n2) + Seqs.When(c3, n3) + Seqs.When(c4, n4) + Seqs.When(c5, n5) + Seqs.When(c6, n6)
  }

  function MissingNotes(item: Sku, req: string, comp: int, quantity: int): (r: seq<Note>)
    ensures |r| <= 3
    ensures CorrosionUnspecified in r <==> !Matching.MentionsCorrosion(req)
    ensures ComplianceMismatch in r <==> comp <= 0
    ensures PackSizeUndersized in r <==> !PackFits(item.packSizesL, quantity)
  {
    (if Matching.MentionsCorrosion(req) then [] else [CorrosionUnspecified])
    + (if comp > 0 then [] else [ComplianceMismatch])
    + (if PackFits(item.packSizesL, quantity) then [] else [PackSizeUndersized])
  }

  /**
   * round(specPoints / 6 * 50 + compliance / 3 * 25 + (15 | 5) + (10 | 0)),
   * computed on exact rationals (the sum times 3 is a whole number).
   */
  function WeightedScore(specPoints: int, compliance: int, packSuitable: bool, appBonus: bool): (r: int)
    requires 0 <= specPoints <= 6 && 0 <= compliance <= 3
    ensures 5 <= r <= 100
    ensures packSuitable ==> r >= 15
    ensures appBonus ==> r >= 15
    ensures var sum := 25 * specPoints + 25 * compliance
                       + 3 * ((if packSuitable then 15 else 5) + (if appBonus then 10 else 0));
            6 * r - 3 <= 2 * sum < 6 * r + 3
  {
    var qtyScore := if packSuitable then 15 else 5;
    var appScore := if appBonus then 10 else 0;
    RoundDiv(25 * specPoints + 25 * compliance + 3 * (qtyScore + appScore), 3)
  }

  /**
   * One SKU against the requirements: spec points (at most 6) weigh 50,
   * compliance (at most 3) 25, pack suitability 15 or 5, the application
   * bonus 10; the sum is rounded to the nearest integer.
   */
  function EvaluateItem(item: Sku, reqText: string, quantity: int, app: string): (r: ProductMatch)
    ensures r.sku == item.sku && r.productName == item.productName && r.category == item.category
    ensures r.costPerLiter == item.costPerLiter && r.properties == item.properties
    ensures r.applications == item.applications
    ensures 5 <= r.matchScore <= 100
    ensures CorrosionUnspecified in r.missingSpecs <==> !Matching.MentionsCorrosion(Lower(reqText))
    ensures ComplianceMismatch in r.missingSpecs <==>
              forall i :: 0 <= i < |item.compliance| ==>
                !StandardMentioned(Lower(reqText), item.compliance[i])
    ensures PackSizeSuitable in r.matchedSpecs <==> PackFits(item.packSizesL, quantity)
    ensures PackSizeUndersized in r.missingSpecs <==> !PackFits(item.packSizesL, quantity)
    ensures |r.matchedSpecs| <= 6 && |r.missingSpecs| <= 3
    ensures var comp := ComplianceMatch(reqText, item.compliance);
            && r.matchedSpecs == MatchedNotes(item, Lower(reqText), comp, quantity)
            && r.missingSpecs == MissingNotes(item, Lower(reqText), comp, quantity)
            && r.matchScore == WeightedScore(Min(|r.matchedSpecs|, 6), comp,
                                             PackFits(item.packSizesL, quantity),
                                             AppBonus(item.applications, app))
  {
    var req := Lower(reqText);
    var comp := ComplianceMatch(reqText, item.compliance);
    var matched := MatchedNotes(item, req, comp, quantity);
    var missing := MissingNotes(item, req, comp, quantity);
    var score := WeightedScore(Min(|matched|, 6), comp, PackFits(item.packSizesL, quantity),
                               AppBonus(item.applications, app));
    ProductMatch(item.sku, item.productName, item.category, score, matched, missing,
                 item.costPerLiter, item.properties, item.applications)
  }

  /**
   * The application bonus adds exactly ten points and changes nothing else:
   * rounding cannot absorb a whole-number addition.
   */
  lemma ApplicationBonusIsTenPoints(item: Sku, reqText: string, quantity: int, app: string)
    requires AppBonus(item.applications, app)
    ensures EvaluateItem(item, reqText, quantity, app).matchScore
         == EvaluateItem(item, reqText, quantity, "").matchScore + 10
    ensures EvaluateItem(item, reqText, quantity, app).matchedSpecs
         == EvaluateItem(item, reqText, quantity, "").matchedSpecs
  {
    var comp := ComplianceMatch(reqText, item.compliance);
    var p := Min(|MatchedNotes(item, Lower(reqText), comp, quantity)|, 6);
    assert !AppBonus(item.applications, "");
    BonusIsTenPoints(p, comp, PackFits(item.packSizesL, quantity));
  }

  lemma BonusIsTenPoints(specPoints: int, compliance: int, packSuitable: bool)
    requires 0 <= specPoints <= 6 && 0 <= compliance <= 3
    ensures WeightedScore(specPoints, compliance, packSuitable, true)
         == WeightedScore(specPoints, compliance, packSuitable, false) + 10
  {
    var qtyScore := if packSuitable then 15 else 5;
    var n := 25 * specPoints + 25 * compliance + 3 * qtyScore;
    RoundShift(n, 3, 10);
    assert n + 3 * 10 == 25 * specPoints + 25 * compliance + 3 * (qtyScore + 10);
  }

  /** A larger order never lowers a SKU's score. */
  lemma ScoreMonotoneInQuantity(item: Sku, reqText: string, q1: int, q2: int, app: string)
    requires q1 <= q2
    ensures EvaluateItem(item, reqText, q1, app).matchScore
         <= EvaluateItem(item, reqText, q2, app).matchScore
  {
    var f1, f2 := PackFits(item.packSizesL, q1), PackFits(item.packSizesL, q2);
    if f1 {
      var i :| 0 <= i < |item.packSizesL| && q1 >= item.packSizesL[i];
      assert q2 >= item.packSizesL[i];
    }
    var req := Lower(reqText);
    var comp := ComplianceMatch(reqText, item.compliance);
    var p1 := Min(|MatchedNotes(item, req, comp, q1)|, 6);
    var p2 := Min(|MatchedNotes(item, req, comp, q2)|, 6);
    assert p1 <= p2;
    var a := if AppBonus(item.applications, app) then 10 else 0;
    var s1 := if f1 then 15 else 5;
    var s2 := if f2 then 15 else 5;
    RoundMonotone(25 * p1 + 25 * comp + 3 * (s1 + a), 25 * p2 + 25 * comp + 3 * (s2 + a), 3);
  }

  /** Every SKU evaluated, in catalogue order. */
  function EvaluateEach(items: seq<Sku>, reqText: string, quantity: int, app: string)
    : (r: seq<ProductMatch>)
    ensures |r| == |items|
    ensures forall i :: 0 <= i < |items| ==> r[i] == EvaluateItem(items[i], reqText, quantity, app)
    ensures forall m :: m in r ==> 5 <= m.matchScore <= 100
  {
    var r := Seqs.Map(items, EvaluateWith(reqText, quantity, app));
    assert forall i :: 0 <= i < |items| ==> r[i] == EvaluateItem(items[i], reqText, quantity, app);
    r
  }

  function EvaluateWith(reqText: string, quantity: int, app: string): Sku -> ProductMatch {
    (item: Sku) => EvaluateItem(item, reqText, quantity, app)
  }

  /**
   * The requirements as one string (an array joined with spaces, a falsy
   * value as ""). `requirements || ''` keeps a truthy non-string as it is;
   * Thrown stands for that value, whose `toLowerCase` throws at the first
   * SKU. Lower-cased, the text is the one the matcher scores against.
   */
  function RequirementsSource(r: Requirements): (t: Outcome<string>)
    ensures t.Thrown? <==> r == ReqValue(NonString)
    ensures r.ReqList? ==> t == Ok(JoinWithSpace(r.items))
    ensures t.Ok? ==> RequirementsText(r) == Ok(Lower(t.value))
  {
    match r
    case ReqList(items) => Ok(JoinWithSpace(items))
    case ReqValue(Str(s)) => Ok(s)
    case ReqValue(Falsy) => Ok("")
    case ReqValue(NonString) => Thrown
  }

  /** `application || ''` once a truthy non-string has been ruled out. */
  function ApplicationString(t: Text): string {
    if t.Str? then t.s else ""
  }

  /** Some SKU lists an application, so `.some` calls its callback at least once. */
  predicate ListsApplications(items: seq<Sku>) {
    exists i | 0 <= i < |items| :: items[i].applications != []
  }

  /**
   * `evaluateAsianCatalog(requirements, quantity, application)` over the
   * catalogue `items`. Nothing is lower-cased before the `map`, so an empty
   * catalogue never throws. Otherwise a non-string requirements value throws
   * at the first SKU's `toLowerCase`, and a truthy non-string application
   * throws at the first SKU that lists an application, where `.some` first
   * calls `app.toLowerCase()`.
   */
  function Evaluate(items: seq<Sku>, requirements: Requirements, quantity: int, application: Text)
    : (r: Outcome<seq<ProductMatch>>)
    ensures r.Thrown? <==>
              || (items != [] && requirements == ReqValue(NonString))
              || (application == NonString && ListsApplications(items))
    ensures items == [] ==> r == Ok([])
    ensures r.Ok? ==> |r.value| == |items| && Sorting.SortedDesc(r.value, MatchScore)
    ensures r.Ok? && items != [] ==>
              var each := EvaluateEach(items, RequirementsSource(requirements).value, quantity,
                                       ApplicationString(application));
              && |r.value| == |each|
              && multiset(r.value) == multiset(each)
              && Sorting.SortedDesc(r.value, MatchScore)
              && Sorting.Stable(each, r.value, MatchScore)
              && (forall m :: m in r.value ==> 5 <= m.matchScore <= 100)
  {
    if items == [] then Ok([])
    else
      match RequirementsSource(requirements)
      case Thrown => Thrown
      case Ok(reqText) =>
        if application.NonString? && ListsApplications(items) then Thrown
        else Ok(Sorting.Rank(EvaluateEach(items, reqText, quantity, ApplicationString(application)), MatchScore))
  }

  /** `evaluateAsianCatalog` against the live catalogue: one ranked match per SKU. */
  function EvaluateAsianCatalog(requirements: Requirements, quantity: int, application: Text)
    : (r: Outcome<seq<ProductMatch>>)
    ensures r.Thrown? <==> requirements == ReqValue(NonString) || application == NonString
    ensures r.Ok? ==> |r.value| == 12 && Sorting.SortedDesc(r.value, MatchScore)
  {
    CatalogShape();
    Evaluate(Items(), requirements, quantity, application)
  }
}

=== FILE: catalog.dfy ===
/**
 * The legacy three-item catalogue (src/lib/catalog.js) and its evaluator
 * `evaluateCatalog`: a 40/30/20/10 weighted score of every item against one
 * requirements string, ranked by score. Unlike the other two scorers it
 * recognises a compliance standard by its leading word only; the lemma
 * `ComplianceAgreesWithOtherScorers` shows that this counts the same
 * standards.
 */
module Catalog {
  import opened Js
  import Seqs
  import Sorting
  import Domain
  import Matching
  import AsianCatalog

  // ------------------------------------------------------------ the table

  /** `item.features`: ratings, coverage, standards, the single pack size and the unit cost. */
  datatype Features = Features(
    corrosionResistance: string,
    uvResistance: string,
    chemicalResistance: string,
    coverageSqMPerL: int,
    compliance: seq<string>,
    packSizeL: int,
    costPerL: int)

  datatype Item = Item(productName: string, sku: string, features: Features)

  /** `CATALOG`, in file order. */
  function Items(): seq<Item> {
    [ Item("Industrial Exterior Paint", "AP-EXT-IC-20L-001",
           Features("High", "High", "Medium", 8, ["ISO 12944", "ASTM D523"], 20, 420)),
      Item("Epoxy Protective Coating", "AP-EPX-PRT-10L-014",
           Features("Very High", "Low", "High", 6, ["ISO 1461", "ASTM D4541"], 10, 680)),
      Item("Economy Industrial Coating", "AP-IND-ECO-20L-009",
           Features("Medium", "Medium", "Low", 7, ["Basic ISO"], 20, 310))
    ]
  }

  /**
   * Each legacy item is the live catalogue's entry of the same position:
   * same SKU code, same standards, same unit cost, and a pack size the live
   * entry also offers.
   */
  lemma LegacyItemsAreLiveItems()
    ensures |Items()| == 3
    ensures forall i :: 0 <= i < |Items()| ==>
              var live := AsianCatalog.Items()[i];
              && live.sku == Items()[i].sku
              && live.compliance == Items()[i].features.compliance
              && live.costPerLiter == Items()[i].features.costPerL
              && Items()[i].features.packSizeL in live.packSizesL
  {
    var live := AsianCatalog.Items();
    assert live[0].packSizesL[0] == 20;
    assert live[1].packSizesL[0] == 10;
    assert live[2].packSizesL[0] == 20;
  }

  // ----------------------------------------------------------- compliance

  /** The leading word of the lower-cased standard occurs in `req`. */
  predicate LeadingWordMentioned(req: string, c: string) {
    Includes(req, LeadingWord(Lower(c)))
  }

  function LeadingWordTest(req: string): string -> bool {
    (c: string) => LeadingWordMentioned(req, c)
  }

  /** `scoreCompliance`: one point per standard whose leading word occurs, capped at 3. */
  function ScoreCompliance(requirements: string, list: seq<string>): (r: int)
    ensures 0 <= r <= 3 && r <= |list|
    ensures r == 0 <==> forall i :: 0 <= i < |list| ==>
                          !LeadingWordMentioned(Lower(requirements), list[i])
  {
    Min(Seqs.Count(list, LeadingWordTest(Lower(requirements))), 3)
  }

  /**
   * Matching on the leading word alone counts exactly the standards the
   * leading-word-or-full-name test of the other two scorers counts.
   */
  lemma ComplianceAgreesWithOtherScorers(requirements: string, list: seq<string>)
    ensures ScoreCompliance(requirements, list) == AsianCatalog.ComplianceMatch(requirements, list)
  {
    var req := Lower(requirements);
    forall i | 0 <= i < |list|
      ensures LeadingWordTest(req)(list[i]) == Domain.StandardTest(req)(list[i])
    {
      LeadingWordLower(list[i]);
      Matching.FullNameTestRedundant(req, list[i]);
    }
    Seqs.CountCongruent(list, LeadingWordTest(req), Domain.StandardTest(req));
  }

  // ------------------------------------------------------------ evaluation

  /** The strings pushed to `matchedSpecs` and `missingSpecs`. */
  datatype Note =
    | CorrosionNote(rating: string)
    | UvNote(rating: string)
    | ChemicalNote(rating: string)
    | CoverageNote(coverage: int)
    | ComplianceNote(standards: seq<string>)
    | PackSizeSuitable(packSizeL: int)
    | ApplicationFit
    | CorrosionUnspecified
    | ComplianceUnmatched
    | PackSizeUndersized(packSizeL: int)

  /** One entry of `evaluateCatalog`'s result. */
  datatype ProductMatch = ProductMatch(
    sku: string,
    productName: string,
    matchScore: int,
    matchedSpecs: seq<Note>,
    missingSpecs: seq<Note>,
    features: Features)

  function MatchScore(m: ProductMatch): int { m.matchScore }

  /** The three coverage keywords; the third is implied by the first. */
  predicate MentionsCoverage(req: string) {
    Includes(req, "coverage") || Includes(req, "sq.m") || Includes(req, "coverage:")
  }

  /** "coverage:" never adds a match: it contains "coverage". */
  lemma CoverageColonRedundant(req: string)
    ensures MentionsCoverage(req) <==> Includes(req, "coverage") || Includes(req, "sq.m")
  {
    if Includes(req, "coverage:") {
      IncludesPrefix(req, "coverage:", 8);
      assert "coverage:"[..8] == "coverage";
    }
  }

  /** Both the application and the product name mention "exterior". */
  predicate ExteriorFit(productName: string, app: string) {
    app != "" && Includes(Lower(app), "exterior") && Includes(Lower(productName), "exterior")
  }

  /**
   * When each matched note is pushed: a note carries the item's own value
   * for its feature, and appears exactly when its test passes.
   */
  predicate MatchedNoteHolds(item: Item, req: string, comp: int, quantity: int, app: string, m: Note) {
    var f := item.features;
    match m
    case CorrosionNote(x) => x == f.corrosionResistance && Matching.MentionsCorrosion(req)
    case UvNote(x) => x == f.uvResistance && Matching.MentionsUv(req)
    case ChemicalNote(x) => x == f.chemicalResistance && Matching.MentionsChemical(req)
    case CoverageNote(x) => x == f.coverageSqMPerL && MentionsCoverage(req)
    case ComplianceNote(x) => x == f.compliance && comp > 0
    case PackSizeSuitable(x) => x == f.packSizeL && quantity >= f.packSizeL
    case ApplicationFit => ExteriorFit(item.productName, app)
    case _ => false
  }

  function MatchedNotes(item: Item, req: string, comp: int, quantity: int, app: string): (r: seq<Note>)
    ensures |r| <= 7
    ensures forall m :: m in r <==> MatchedNoteHolds(item, req, comp, quantity, app, m)
  {
    var f := item.features;
    var corrosion, uv, chemical := Matching.MentionsCorrosion(req), Matching.MentionsUv(req),
                                   Matching.MentionsChemical(req);
    var coverage, fit := MentionsCoverage(req), ExteriorFit(item.productName, app);
    NoteList(corrosion, CorrosionNote(f.corrosionResistance), uv, UvNote(f.uvResistance),
             chemical, ChemicalNote(f.chemicalResistance), coverage, CoverageNote(f.coverageSqMPerL),
             comp > 0, ComplianceNote(f.compliance), quantity >= f.packSizeL, PackSizeSuitable(f.packSizeL),
             fit, ApplicationFit)
  }

  /** The notes whose conditions hold, in the order the source pushes them. */
  function NoteList(c1: bool, n1: Note, c2: bool, n2: Note, c3: bool, n3: Note, c4: bool, n4: Note,
                    c5: bool, n5: Note, c6: bool, n6: Note, c7: bool, n7: Note): (r: seq<Note>)
    ensures |r| <= 7
    ensures forall m :: m in r <==> (c1 && m == n1) || (c2 && m == n2) || (c3 && m == n3)
                                    || (c4 && m == n4) || (c5 && m == n5) || (c6 && m == n6)
                                    || (c7 && m == n7)
  {
    Seqs.When(c1, n1) + Seqs.When(c2, n2) + Seqs.When(c3, n3) + Seqs.When(c4, n4) + Seqs.When(c5, n5)
    + Seqs.When(c6, n6) + Seqs.When(c7, n7)
  }

  function MissingNotes(item: Item, req: string, comp: int, quantity: int): (r: seq<Note>)
    ensures |r| <= 3
    ensures CorrosionUnspecified in r <==> !Matching.MentionsCorrosion(req)
    ensures ComplianceUnmatched in r <==> comp <= 0
    ensures PackSizeUndersized(item.features.packSizeL) in r <==> quantity < item.features.packSizeL
  {
    (if Matching.MentionsCorrosion(req) then [] else [CorrosionUnspecified])
    + (if comp > 0 then [] else [ComplianceUnmatched])
    + (if quantity >= item.features.packSizeL then [] else [PackSizeUndersized(item.features.packSizeL)])
  }

  /**
   * round(specPoints / 5 * 40 + compliance / 3 * 30 + (20 | 5) + (10 | 0))
   * on exact rationals. Both fractions are whole, so rounding never moves
   * the sum: 8 points per spec point and 10 per standard.
   */
  function WeightedScore(specPoints: int, compliance: int, packSuitable: bool, appBonus: bool): (r: int)
    requires 0 <= specPoints <= 5 && 0 <= compliance <= 3
    ensures r == 8 * specPoints + 10 * compliance + (if packSuitable then 20 else 5)
                 + (if appBonus then 10 else 0)
    ensures 5 <= r <= 100
  {
    var quantityScore := if packSuitable then 20 else 5;
    var appScore := if appBonus then 10 else 0;
    RoundDiv(120 * specPoints + 150 * compliance + 15 * (quantityScore + appScore), 15)
  }

  function EvaluateItem(item: Item, requirements: string, quantity: int, app: string): (r: ProductMatch)
    ensures r.sku == item.sku && r.productName == item.productName && r.features == item.features
    ensures 5 <= r.matchScore <= 100
    ensures CorrosionUnspecified in r.missingSpecs <==> !Matching.MentionsCorrosion(Lower(requirements))
    ensures ComplianceUnmatched in r.missingSpecs <==>
              forall i :: 0 <= i < |item.features.compliance| ==>
                !LeadingWordMentioned(Lower(requirements), item.features.compliance[i])
    ensures PackSizeSuitable(item.features.packSizeL) in r.matchedSpecs <==> quantity >= item.features.packSizeL
    ensures ApplicationFit in r.matchedSpecs <==> ExteriorFit(item.productName, app)
    ensures PackSizeUndersized(item.features.packSizeL) in r.missingSpecs <==> quantity < item.features.packSizeL
    ensures var comp := ScoreCompliance(requirements, item.features.compliance);
            && r.matchedSpecs == MatchedNotes(item, Lower(requirements), comp, quantity, app)
            && r.missingSpecs == MissingNotes(item, Lower(requirements), comp, quantity)
            && r.matchScore == WeightedScore(Min(|r.matchedSpecs|, 5), comp,
                                             quantity >= item.features.packSizeL,
                                             ExteriorFit(item.productName, app))
  {
    var req := Lower(requirements);
    var comp := ScoreCompliance(requirements, item.features.compliance);
    var matched := MatchedNotes(item, req, comp, quantity, app);
    assert MatchedNoteHolds(item, req, comp, quantity, app, PackSizeSuitable(item.features.packSizeL))
           <==> quantity >= item.features.packSizeL;
    assert MatchedNoteHolds(item, req, comp, quantity, app, ApplicationFit) <==> ExteriorFit(item.productName, app);
    var missing := MissingNotes(item, req, comp, quantity);
    var score := WeightedScore(Min(|matched|, 5), comp, quantity >= item.features.packSizeL,
                               ExteriorFit(item.productName, app));
    ProductMatch(item.sku, item.productName, score, matched, missing, item.features)
  }

  /** Without a matching application no item earns the bonus, and none scores above 90. */
  lemma NoApplicationCapsScore(item: Item, requirements: string, quantity: int)
    ensures EvaluateItem(item, requirements, quantity, "").matchScore <= 90
  {
    var req := Lower(requirements);
    var comp := ScoreCompliance(requirements, item.features.compliance);
    var p := Min(|MatchedNotes(item, req, comp, quantity, "")|, 5);
    assert !ExteriorFit(item.productName, "");
    assert WeightedScore(p, comp, quantity >= item.features.packSizeL, false) <= 8 * 5 + 10 * 3 + 20;
  }

  function EvaluateEach(items: seq<Item>, requirements: string, quantity: int, app: string)
    : (r: seq<ProductMatch>)
    ensures |r| == |items|
    ensures forall i :: 0 <= i < |items| ==> r[i] == EvaluateItem(items[i], requirements, quantity, app)
    ensures forall m :: m in r ==> 5 <= m.matchScore <= 100
  {
    var r := Seqs.Map(items, EvaluateWith(requirements, quantity, app));
    assert forall i :: 0 <= i < |items| ==> r[i] == EvaluateItem(items[i], requirements, quantity, app);
    r
  }

  function EvaluateWith(requirements: string, quantity: int, app: string): Item -> ProductMatch {
    (item: Item) => EvaluateItem(item, requirements, quantity, app)
  }

  /**
   * `evaluateCatalog(requirements, quantity, application)` over the
   * catalogue `items`: inside the `map`, a truthy non-string requirements
   * value or application throws at its `toLowerCase`; an empty catalogue
   * never runs the callback and yields no matches.
   */
  function Evaluate(items: seq<Item>, requirements: Text, quantity: int, application: Text)
    : (r: Outcome<seq<ProductMatch>>)
    ensures r.Thrown? <==> items != [] && (requirements.NonString? || application.NonString?)
    ensures items == [] ==> r == Ok([])
    ensures r.Ok? ==>
              var each := EvaluateEach(items, if requirements.Str? then requirements.s else "",
                                       quantity, if application.Str? then application.s else "");
              && |r.value| == |each|
              && multiset(r.value) == multiset(each)
              && Sorting.SortedDesc(r.value, MatchScore)
              && Sorting.Stable(each, r.value, MatchScore)
              && (forall m :: m in r.value ==> 5 <= m.matchScore <= 100)
  {
    if items == [] then Ok([])
    else if requirements.NonString? || application.NonString? then Thrown
    else
      var req := if requirements.Str? then requirements.s else "";
      var app := if application.Str? then application.s else "";
      Ok(Sorting.Rank(EvaluateEach(items, req, quantity, app), MatchScore))
  }

  /** `evaluateCatalog` against the legacy table: one ranked match per item. */
  function EvaluateCatalog(requirements: Text, quantity: int, application: Text)
    : (r: Outcome<seq<ProductMatch>>)
    ensures r.Thrown? <==> requirements.NonString? || application.NonString?
    ensures r.Ok? ==> |r.value| == |Items()| && Sorting.SortedDesc(r.value, MatchScore)
  {
    Evaluate(Items(), requirements, quantity, application)
  }
}

=== FILE: domain.dfy ===
/**
 * The records the matching code and the workflow read: candidate
 * procurement requests (SFPs) and the paint SKUs of the live catalogue.
 */
module Domain {
  import opened Js

  /** `sfp.requirements`: an array of lines, or a single value. */
  datatype Requirements = ReqList(items: seq<string>) | ReqValue(value: Text)

  /**
   * A candidate SFP. `deadline` is the deadline in epoch milliseconds
   * (None for a date `new Date` cannot parse); `quantity` is the value of
   * `Number(sfp.quantity)` (None for NaN).
   */
  datatype Sfp = Sfp(
    id: string,
    title: Text,
    description: Text,
    requirements: Requirements,
    deadline: Option<int>,
    quantity: Option<int>)

  /** Qualitative ratings ("Low", "Medium", "High", "Very High") and coverage. */
  datatype Properties = Properties(
    corrosionResistance: string,
    uvResistance: string,
    durability: string,
    coverage: int)

  /** An item of the live catalogue (src/lib/asianCatalog.js). */
  datatype Sku = Sku(
    sku: string,
    productName: string,
    category: string,
    properties: Properties,
    compliance: seq<string>,
    costPerLiter: int,
    packSizesL: seq<int>,
    applications: seq<string>)

  /**
   * The lower-cased requirements text: an array is joined with single
   * spaces, a missing value becomes "", and a non-string value throws.
   */
  function RequirementsText(r: Requirements): (t: Outcome<string>)
    ensures t.Thrown? <==> r == ReqValue(NonString)
    ensures r.ReqList? ==> t == Ok(Lower(JoinWithSpace(r.items)))
    ensures r == ReqValue(Falsy) ==> t == Ok("")
    ensures r.ReqValue? && r.value.Str? ==> t == Ok(Lower(r.value.s))
  {
    match r
    case ReqList(items) => Ok(Lower(JoinWithSpace(items)))
    case ReqValue(v) => LowerOrEmpty(v)
  }

  /**
   * A keyword found in any line of an array of requirements, once that
   * line is lower-cased, is found in the requirements text.
   */
  lemma KeywordInAnyLine(items: seq<string>, i: nat, w: string)
    requires i < |items| && Includes(Lower(items[i]), w)
    ensures Includes(RequirementsText(ReqList(items)).value, w)
  {
    var joined := JoinWithSpace(items);
    LowerIncludes(joined, items[i]);
    IncludesTransitive(Lower(joined), Lower(items[i]), w);
  }

  /** The text fields an SFP is scored on can all be lower-cased without throwing. */
  predicate Readable(sfp: Sfp) {
    && sfp.requirements != ReqValue(NonString)
    && !sfp.description.NonString?
    && !sfp.title.NonString?
  }

  /** Some pack size is no larger than the quantity (`packs.some(p => qty >= p)`). */
  predicate PackFits(packs: seq<int>, qty: int) {
    exists i | 0 <= i < |packs| :: qty >= packs[i]
  }

  /**
   * A compliance standard is mentioned in the lower-cased requirements
   * when its leading word or its full name, lower-cased, occurs there.
   */
  predicate StandardMentioned(req: string, c: string) {
    Includes(req, Lower(LeadingWord(c))) || Includes(req, Lower(c))
  }

  function StandardTest(req: string): string -> bool {
    (c: string) => StandardMentioned(req, c)
  }
}

=== FILE: js.dfy ===
/**
 * The few JavaScript primitives the matching and workflow code relies on,
 * stated exactly: ASCII lower-casing, `String.prototype.includes`,
 * `s.split(' ')[0]`, `Math.round` and `Math.ceil` on exact rationals,
 * `Array.prototype.slice`, and the `x || default` idiom.
 */
module Js {

  /** `null`/`undefined` (None) or a present value. */
  datatype Option<+T> = None | Some(value: T)

  /** The outcome of evaluating an expression that may throw a TypeError. */
  datatype Outcome<+T> = Ok(value: T) | Thrown

  /**
   * A record field the code reads with `(x || '').toLowerCase()`:
   * a string, a falsy non-string (undefined, null, 0, false), or a truthy
   * non-string (a number, an array, an object) on which `toLowerCase` throws.
   */
  datatype Text = Str(s: string) | Falsy | NonString

  function Min(a: int, b: int): int { if a <= b then a else b }

  function Max(a: int, b: int): int { if a >= b then a else b }

  /**
   * The values of outcomes computed one after the other, as `map` collects
   * them: the whole throws as soon as one of them throws.
   */
  function Collect<T>(s: seq<Outcome<T>>): (r: Outcome<seq<T>>)
    ensures r.Thrown? <==> exists i :: 0 <= i < |s| && s[i].Thrown?
    ensures r.Ok? ==> |r.value| == |s| && forall i :: 0 <= i < |s| ==> s[i] == Ok(r.value[i])
  {
    if s == [] then Ok([])
    else
      assert forall i :: 0 < i < |s| ==> s[i] == s[1..][i - 1];
      match (s[0], Collect(s[1..]))
      case (Ok(x), Ok(rest)) => Ok([x] + rest)
      case _ => Thrown
  }

  // ---------------------------------------------------------------- strings

  function LowerChar(c: char): char {
    if 'A' <= c <= 'Z' then (c as int + 32) as char else c
  }

  /** `toLowerCase`, restricted to ASCII letters. */
  function Lower(s: string): (r: string)
    ensures |r| == |s|
    ensures forall i :: 0 <= i < |s| ==> r[i] == LowerChar(s[i])
  {
    seq(|s|, i requires 0 <= i < |s| => LowerChar(s[i]))
  }

  /** `pat` occurs in `text` starting at index `i`. */
  predicate OccursAt(text: string, pat: string, i: int) {
    0 <= i && i + |pat| <= |text| && text[i..i + |pat|] == pat
  }

  /** `text.includes(pat)`. */
  predicate Includes(text: string, pat: string) {
    exists i | 0 <= i <= |text| - |pat| :: OccursAt(text, pat, i)
  }

  /** An occurrence of a string is an occurrence of each of its prefixes. */
  lemma IncludesPrefix(text: string, pat: string, k: nat)
    requires k <= |pat|
    requires Includes(text, pat)
    ensures Includes(text, pat[..k])
  {
    var i :| 0 <= i <= |text| - |pat| && OccursAt(text, pat, i);
    assert text[i..i + k] == text[i..i + |pat|][..k];
    assert OccursAt(text, pat[..k], i);
  }

  /** An occurrence inside an occurrence is an occurrence: `includes` is transitive. */
  lemma IncludesTransitive(a: string, b: string, c: string)
    requires Includes(a, b) && Includes(b, c)
    ensures Includes(a, c)
  {
    var i :| 0 <= i <= |a| - |b| && OccursAt(a, b, i);
    var j :| 0 <= j <= |b| - |c| && OccursAt(b, c, j);
    forall k | 0 <= k < |c|
      ensures a[i + j + k] == c[k]
    {
      assert a[i..i + |b|][j + k] == a[i + j + k];
      assert b[j..j + |c|][k] == b[j + k];
    }
    assert a[i + j..i + j + |c|] == c;
    assert OccursAt(a, c, i + j);
  }

  /** A string occurs in any concatenation that has it at the front, or at the back. */
  lemma IncludesConcat(a: string, b: string)
    ensures Includes(a + b, a) && Includes(a + b, b)
  {
    assert (a + b)[0..|a|] == a;
    assert OccursAt(a + b, a, 0);
    assert (a + b)[|a|..|a| + |b|] == b;
    assert OccursAt(a + b, b, |a|);
  }

  /** A string whose first character never occurs cannot occur. */
  lemma NotIncludesFirstChar(text: string, pat: string)
    requires |pat| > 0 && pat[0] !in text
    ensures !Includes(text, pat)
  {
    forall i | 0 <= i <= |text| - |pat|
      ensures !OccursAt(text, pat, i)
    {
      assert text[i..i + |pat|][0] == text[i];
    }
  }

  /** Lower-casing commutes with taking a prefix. */
  lemma LowerPrefix(s: string, k: nat)
    requires k <= |s|
    ensures Lower(s[..k]) == Lower(s)[..k]
  {
  }

  /** `(x || '').toLowerCase()`: throws on a truthy non-string. */
  function LowerOrEmpty(t: Text): (r: Outcome<string>)
    ensures r.Thrown? <==> t.NonString?
    ensures t.Str? ==> r == Ok(Lower(t.s))
    ensures t.Falsy? ==> r == Ok("")
  {
    match t
    case Str(s) => Ok(Lower(s))
    case Falsy => Ok("")
    case NonString => Thrown
  }

  /** `s.split(' ')[0]`: everything before the first space. */
  function LeadingWord(s: string): (w: string)
    ensures |w| <= |s| && w == s[..|w|]
    ensures ' ' !in w
    ensures |w| == |s| || s[|w|] == ' '
  {
    if s == [] || s[0] == ' ' then [] else [s[0]] + LeadingWord(s[1..])
  }

  /** Lower-casing distributes over concatenation. */
  lemma LowerConcat(a: string, b: string)
    ensures Lower(a + b) == Lower(a) + Lower(b)
  {
  }

  /** Lower-casing keeps occurrences. */
  lemma LowerIncludes(a: string, b: string)
    requires Includes(a, b)
    ensures Includes(Lower(a), Lower(b))
  {
    var i :| 0 <= i <= |a| - |b| && OccursAt(a, b, i);
    forall k | 0 <= k < |b|
      ensures Lower(a)[i + k] == Lower(b)[k]
    {
      assert a[i..i + |b|][k] == a[i + k];
    }
    assert Lower(a)[i..i + |b|] == Lower(b);
    assert OccursAt(Lower(a), Lower(b), i);
  }

  /** Lower-casing twice is lower-casing once. */
  lemma LowerIdempotent(s: string)
    ensures Lower(Lower(s)) == Lower(s)
  {
    assert forall i :: 0 <= i < |s| ==> LowerChar(LowerChar(s[i])) == LowerChar(s[i]);
  }

  /** Lower-casing keeps spaces where they are, so it commutes with `split(' ')[0]`. */
  lemma {:induction false} LeadingWordLower(s: string)
    ensures LeadingWord(Lower(s)) == Lower(LeadingWord(s))
  {
    if s != [] {
      assert Lower(s)[0] == LowerChar(s[0]);
      assert Lower(s)[1..] == Lower(s[1..]);
      if s[0] != ' ' {
        LeadingWordLower(s[1..]);
        LowerConcat([s[0]], LeadingWord(s[1..]));
      }
    }
  }

  /**
   * `items.join(' ')`: the items in order with one space between
   * neighbours, so every item occurs in the joined text.
   */
  function JoinWithSpace(items: seq<string>): (r: string)
    ensures items == [] ==> r == ""
    ensures |items| == 1 ==> r == items[0]
    ensures |items| >= 2 ==> r == items[0] + " " + JoinWithSpace(items[1..])
    ensures forall i :: 0 <= i < |items| ==> Includes(r, items[i])
  {
    if items == [] then ""
    else if |items| == 1 then
      IncludesConcat(items[0], "");
      assert items[0] + "" == items[0];
      items[0]
    else
      var rest := JoinWithSpace(items[1..]);
      var r := items[0] + " " + rest;
      JoinIncludes(items[0], rest);
      assert forall i :: 1 <= i < |items| ==> items[i] == items[1..][i - 1];
      forall i | 1 <= i < |items|
        ensures Includes(r, items[i])
      {
        IncludesTransitive(r, rest, items[1..][i - 1]);
      }
      r
  }

  /** Both halves of `a + ' ' + b` occur in it. */
  lemma JoinIncludes(a: string, b: string)
    ensures Includes(a + " " + b, a) && Includes(a + " " + b, b)
  {
    IncludesConcat(a, " " + b);
    IncludesConcat(a + " ", b);
    assert a + " " + b == a + (" " + b);
  }


  // ---------------------------------------------------------------- numbers

  /** `Math.round(n / d)`: the nearest integer, halves rounded up. */
  function RoundDiv(n: int, d: int): (r: int)
    requires d > 0
    ensures 2 * d * r - d <= 2 * n < 2 * d * r + d
  {
    var r := (2 * n + d) / (2 * d);
    assert 2 * d * r <= 2 * n + d < 2 * d * r + 2 * d;
    r
  }

  /** There is only one nearest integer (halves rounded up). */
  lemma RoundUnique(n: int, d: int, x: int, y: int)
    requires d > 0
    requires 2 * d * x - d <= 2 * n < 2 * d * x + d
    requires 2 * d * y - d <= 2 * n < 2 * d * y + d
    ensures x == y
  {
    if x < y {
      MulGap(2 * d, x, y);
      assert false;
    } else if y < x {
      MulGap(2 * d, y, x);
      assert false;
    }
  }

  /** Multiples of a positive number are at least that number apart. */
  lemma {:induction false} MulGap(d: int, x: int, y: int)
    requires d > 0 && x < y
    ensures d * y >= d * x + d
    decreases y - x
  {
    if x + 1 < y {
      MulGap(d, x, y - 1);
    }
    assert d * y == d * (y - 1) + d;
  }

  /** Rounding commutes with adding a whole number. */
  lemma RoundShift(n: int, d: int, k: int)
    requires d > 0
    ensures RoundDiv(n + d * k, d) == RoundDiv(n, d) + k
  {
    var a := RoundDiv(n + d * k, d);
    assert 2 * d * (a - k) == 2 * d * a - 2 * (d * k);
    RoundUnique(n, d, a - k, RoundDiv(n, d));
  }

  /** Rounding is monotone. */
  lemma RoundMonotone(n: int, m: int, d: int)
    requires d > 0 && n <= m
    ensures RoundDiv(n, d) <= RoundDiv(m, d)
  {
    var a, b := RoundDiv(n, d), RoundDiv(m, d);
    if a > b {
      MulGap(2 * d, b, a);
      assert false;
    }
  }

  /** `Math.ceil(n / d)`. */
  function CeilDiv(n: int, d: int): (r: int)
    requires d > 0
    ensures d * (r - 1) < n <= d * r
  {
    var q := (-n) / d;
    assert d * q <= -n < d * q + d;
    -q
  }

  /** `Number(x) || default`: NaN (None) and 0 both fall back. */
  function NumberOr(x: Option<int>, default: int): (r: int)
    ensures r == default || (x.Some? && x.value == r && r != 0)
    ensures x.Some? && x.value != 0 ==> r == x.value
    ensures x.None? || x.value == 0 ==> r == default
  {
    match x
    case None => default
    case Some(v) => if v == 0 then default else v
  }

  // ---------------------------------------------------------------- arrays

  /** The start of `slice(0, n)` / end of `slice(n)`, with negative `n` counted from the end. */
  function SliceIndex(len: nat, n: int): (k: nat)
    ensures k <= len
    ensures n >= 0 ==> k == Min(n, len)
  {
    if n >= 0 then Min(n, len) else Max(len + n, 0)
  }

  /** `s.slice(0, n)`. */
  function Take<T>(s: seq<T>, n: int): (r: seq<T>)
    ensures |r| <= |s| && r == s[..|r|]
    ensures n >= 0 ==> |r| == Min(n, |s|)
  {
    s[..SliceIndex(|s|, n)]
  }

  /** `s.slice(n)`. */
  function Drop<T>(s: seq<T>, n: int): (r: seq<T>)
    ensures Take(s, n) + r == s
  {
    s[SliceIndex(|s|, n)..]
  }
}

=== FILE: matching.dfy ===
/**
 * The live scorer (src/lib/matching.js): a deterministic 40/30/20/10
 * weighted match score of one SFP against one SKU, ranking of many SFPs
 * for one SKU, and the threshold-or-top-N shortlist.
 */
module Matching {
  import opened Js
  import opened Domain
  import Seqs
  import Sorting

  // ------------------------------------------------------------ ratings

  /** "Very ..." is 3, "... High" is 2, "Medium" is 1, anything else 0. */
  function QualitativeToScore(v: string): (r: int)
    ensures 0 <= r <= 3
    ensures r == 3 <==> Includes(Lower(v), "very")
    ensures r == 2 <==> !Includes(Lower(v), "very") && Includes(Lower(v), "high")
    ensures r == 1 <==> !Includes(Lower(v), "very") && !Includes(Lower(v), "high")
                        && Includes(Lower(v), "medium")
    ensures r == 0 <==> !Includes(Lower(v), "very") && !Includes(Lower(v), "high")
                        && !Includes(Lower(v), "medium")
  {
    if v == "" then 0
    else
      var l := Lower(v);
      if Includes(l, "very") then 3
      else if Includes(l, "high") then 2
      else if Includes(l, "medium") then 1
      else 0
  }

  /** The rating ignores case: rating a lower-cased text gives the same score. */
  lemma QualitativeIgnoresCase(v: string)
    ensures QualitativeToScore(Lower(v)) == QualitativeToScore(v)
  {
    LowerIdempotent(v);
  }

  /** The four ratings the catalogue uses. */
  lemma QualitativeExamples()
    ensures QualitativeToScore("Very High") == 3
    ensures QualitativeToScore("High") == 2
    ensures QualitativeToScore("Medium") == 1
    ensures QualitativeToScore("Low") == 0
  {
    VeryHighIsThree();
    HighIsTwo();
    MediumIsOne();
    LowIsZero();
  }

  lemma VeryHighIsThree()
    ensures QualitativeToScore("Very High") == 3
  {
    assert Lower("Very High") == "very high";
    assert OccursAt("very high", "very", 0);
  }

  lemma HighIsTwo()
    ensures QualitativeToScore("High") == 2
  {
    assert Lower("High") == "high";
    NotIncludesFirstChar("high", "very");
    assert OccursAt("high", "high", 0);
  }

  lemma MediumIsOne()
    ensures QualitativeToScore("Medium") == 1
  {
    assert Lower("Medium") == "medium";
    NotIncludesFirstChar("medium", "very");
    NotIncludesFirstChar("medium", "high");
    assert OccursAt("medium", "medium", 0);
  }

  lemma LowIsZero()
    ensures QualitativeToScore("Low") == 0
  {
    assert Lower("Low") == "low";
    NotIncludesFirstChar("low", "very");
    NotIncludesFirstChar("low", "high");
    NotIncludesFirstChar("low", "medium");
  }

  // ------------------------------------------------------- specification

  predicate MentionsCorrosion(req: string) { Includes(req, "corrosion") }

  predicate MentionsUv(req: string) {
    Includes(req, "uv") || Includes(req, "sun") || Includes(req, "exterior")
  }

  predicate MentionsChemical(req: string) { Includes(req, "chemical") }

  datatype SpecReason = CorrosionMatched(rating: string) | UvMatched(rating: string) | ChemicalMatched(rating: string)

  /** Twice the rating when the keyword was mentioned; at most 6 points. */
  function KeywordPoints(mentioned: bool, rating: string): (r: int)
    ensures 0 <= r <= 6
    ensures !mentioned ==> r == 0
    ensures mentioned ==> r == 2 * QualitativeToScore(rating)
  {
    if mentioned then QualitativeToScore(rating) * 2 else 0
  }

  /**
   * Corrosion is judged on `corrosionResistance`, UV on `uvResistance` and
   * chemical resistance on `durability`.
   */
  function SpecPoints(p: Properties, req: string): (r: nat)
    ensures r <= 18
    ensures r == KeywordPoints(MentionsCorrosion(req), p.corrosionResistance)
                 + KeywordPoints(MentionsUv(req), p.uvResistance)
                 + KeywordPoints(MentionsChemical(req), p.durability)
  {
    KeywordPoints(MentionsCorrosion(req), p.corrosionResistance)
    + KeywordPoints(MentionsUv(req), p.uvResistance)
    + KeywordPoints(MentionsChemical(req), p.durability)
  }

  function SpecReasons(p: Properties, req: string): seq<SpecReason> {
    (if MentionsCorrosion(req) then [CorrosionMatched(p.corrosionResistance)] else [])
    + (if MentionsUv(req) then [UvMatched(p.uvResistance)] else [])
    + (if MentionsChemical(req) then [ChemicalMatched(p.durability)] else [])
  }

  /** round(min(points, 12) / 12 * 40): saturates at 12 points. */
  function SpecScore(points: nat): (r: int)
    ensures 0 <= r <= 40
    ensures r == 0 <==> points == 0
    ensures points >= 12 ==> r == 40
    ensures 24 * r - 12 <= 80 * Min(points, 12) < 24 * r + 12
  {
    RoundDiv(Min(points, 12) * 40, 12)
  }

  lemma SpecScoreMonotone(a: nat, b: nat)
    requires a <= b
    ensures SpecScore(a) <= SpecScore(b)
  {
    var ra, rb := SpecScore(a), SpecScore(b);
    assert 24 * ra - 12 <= 2 * Min(a, 12) * 40 < 24 * ra + 12;
    assert 24 * rb - 12 <= 2 * Min(b, 12) * 40 < 24 * rb + 12;
  }

  // ---------------------------------------------------------- compliance

  function ComplianceMatches(compliance: seq<string>, req: string): (r: seq<string>)
    ensures |r| <= |compliance|
    ensures forall c :: c in r <==> c in compliance && StandardMentioned(req, c)
    ensures Seqs.IsSubsequence(r, compliance)
    ensures |r| == Seqs.Count(compliance, StandardTest(req))
  {
    var r := Seqs.Filter(compliance, StandardTest(req));
    Seqs.FilterMembers(compliance, StandardTest(req));
    Seqs.FilterIsSubsequence(compliance, StandardTest(req));
    Seqs.CountIsFilterSize(compliance, StandardTest(req));
    r
  }

  /** round(min(k, 3) / 3 * 30): ten points per matched standard, at most three. */
  function ComplianceScore(k: nat): (r: int)
    ensures r == 10 * Min(k, 3)
  {
    RoundDiv(Min(k, 3) * 30, 3)
  }

  /**
   * The full-name test never adds a match: an occurrence of the full name
   * is an occurrence of its leading word.
   */
  lemma FullNameTestRedundant(req: string, c: string)
    ensures StandardMentioned(req, c) <==> Includes(req, Lower(LeadingWord(c)))
  {
    var w := LeadingWord(c);
    if Includes(req, Lower(c)) {
      LowerPrefix(c, |w|);
      IncludesPrefix(req, Lower(c), |w|);
    }
  }

  // ------------------------------------------------------------ quantity

  /** 20 when some pack size fits the quantity, else 8 for a positive quantity, else 0. */
  function QuantityScore(packs: seq<int>, qty: int): (r: int)
    ensures r == 20 || r == 8 || r == 0
    ensures r == 20 <==> PackFits(packs, qty)
    ensures r == 8 <==> !PackFits(packs, qty) && qty > 0
  {
    if PackFits(packs, qty) then 20 else if qty > 0 then 8 else 0
  }

  lemma QuantityScoreMonotone(packs: seq<int>, q1: int, q2: int)
    requires q1 <= q2
    ensures QuantityScore(packs, q1) <= QuantityScore(packs, q2)
  {
    if PackFits(packs, q1) {
      var i :| 0 <= i < |packs| && q1 >= packs[i];
      assert q2 >= packs[i];
    }
  }

  // --------------------------------------------------------- application

  /** `description + " " + title`, lower-cased; throws on a non-string field. */
  function ApplicationText(sfp: Sfp): (r: Outcome<string>)
    ensures r.Thrown? <==> sfp.description.NonString? || sfp.title.NonString?
    ensures r.Ok? ==> r.value == LowerOrEmpty(sfp.description).value + " " + LowerOrEmpty(sfp.title).value
  {
    match (LowerOrEmpty(sfp.description), LowerOrEmpty(sfp.title))
    case (Ok(d), Ok(t)) => Ok(d + " " + t)
    case _ => Thrown
  }

  predicate ApplicationMentioned(apps: seq<string>, appText: string) {
    exists i | 0 <= i < |apps| :: Includes(appText, Lower(LeadingWord(apps[i])))
  }

  function ApplicationScore(apps: seq<string>, appText: string): (r: int)
    ensures r == 10 || r == 0
    ensures r == 10 <==> ApplicationMentioned(apps, appText)
  {
    if ApplicationMentioned(apps, appText) then 10 else 0
  }

  // --------------------------------------------------------------- score

  datatype Breakdown = Breakdown(
    specScore: int,
    specReasons: seq<SpecReason>,
    complianceScore: int,
    complianceMatches: seq<string>,
    quantityScore: int,
    applicationScore: int,
    total: int)

  datatype ScoreResult = ScoreResult(score: int, breakdown: Breakdown)

  /** `scoreSFP` once the texts have been extracted and lower-cased. */
  function ScoreTexts(sku: Sku, req: string, qty: int, appText: string): (r: ScoreResult)
    ensures r.score == r.breakdown.total
    ensures r.breakdown.total == r.breakdown.specScore + r.breakdown.complianceScore
                                 + r.breakdown.quantityScore + r.breakdown.applicationScore
    ensures 0 <= r.breakdown.specScore <= 40
    ensures r.breakdown.complianceScore == 10 * Min(|r.breakdown.complianceMatches|, 3)
    ensures r.breakdown.quantityScore == 20 <==> PackFits(sku.packSizesL, qty)
    ensures r.breakdown.applicationScore == 10 <==> ApplicationMentioned(sku.applications, appText)
    ensures 0 <= r.score <= 100
    ensures r.breakdown.specScore == SpecScore(SpecPoints(sku.properties, req))
    ensures r.breakdown.specReasons == SpecReasons(sku.properties, req)
    ensures r.breakdown.complianceMatches == ComplianceMatches(sku.compliance, req)
    ensures r.breakdown.quantityScore == QuantityScore(sku.packSizesL, qty)
    ensures r.breakdown.applicationScore == ApplicationScore(sku.applications, appText)
  {
    var spec := SpecScore(SpecPoints(sku.properties, req));
    var matches := ComplianceMatches(sku.compliance, req);
    var compliance := ComplianceScore(|matches|);
    var quantity := QuantityScore(sku.packSizesL, qty);
    var application := ApplicationScore(sku.applications, appText);
    var total := spec + compliance + quantity + application;
    ScoreResult(total, Breakdown(spec, SpecReasons(sku.properties, req), compliance, matches,
                                 quantity, application, total))
  }

  /** `scoreSFP(sku, sfp)`: the quantity defaults to 0 here. */
  function ScoreSfp(sku: Sku, sfp: Sfp): (r: Outcome<ScoreResult>)
    ensures r.Ok? <==> Readable(sfp)
    ensures r.Ok? ==> 0 <= r.value.score <= 100 && r.value.score == r.value.breakdown.total
    ensures r.Ok? ==> r.value == ScoreTexts(sku, RequirementsText(sfp.requirements).value,
                                            NumberOr(sfp.quantity, 0), ApplicationText(sfp).value)
    ensures r.Ok? ==> r.value.breakdown.quantityScore == QuantityScore(sku.packSizesL, NumberOr(sfp.quantity, 0))
  {
    match (RequirementsText(sfp.requirements), ApplicationText(sfp))
    case (Ok(req), Ok(app)) => Ok(ScoreTexts(sku, req, NumberOr(sfp.quantity, 0), app))
    case _ => Thrown
  }

  /** Asking for more never lowers an SFP's score against a SKU. */
  lemma ScoreMonotoneInQuantity(sku: Sku, req: string, q1: int, q2: int, appText: string)
    requires q1 <= q2
    ensures ScoreTexts(sku, req, q1, appText).score <= ScoreTexts(sku, req, q2, appText).score
  {
    QuantityScoreMonotone(sku.packSizesL, q1, q2);
  }

  /**
   * Worked example: "High" corrosion resistance, one ISO standard named,
   * 1000 litres against 20/200 litre packs, no application match:
   * 13 + 10 + 20 + 0 = 43.
   */
  lemma ScoreExample()
    ensures var sku := Sku("EX-1", "Example", "Exterior", Properties("High", "", "", 8),
                           ["ISO 12944"], 420, [20, 200], []);
            var sfp := Sfp("1", Falsy, Falsy, ReqValue(Str("corrosion resistant, ISO 12944 compliant")),
                           None, Some(1000));
            var r := ScoreSfp(sku, sfp);
            r.Ok? && r.value.score == 43
            && r.value.breakdown.specScore == 13 && r.value.breakdown.complianceScore == 10
            && r.value.breakdown.quantityScore == 20 && r.value.breakdown.applicationScore == 0
  {
    var sku := Sku("EX-1", "Example", "Exterior", Properties("High", "", "", 8),
                   ["ISO 12944"], 420, [20, 200], []);
    var sfp := Sfp("1", Falsy, Falsy, ReqValue(Str("corrosion resistant, ISO 12944 compliant")),
                   None, Some(1000));
    ExampleTexts(sfp);
    ExampleBreakdown(sku, "corrosion resistant, iso 12944 compliant");
  }

  lemma ExampleTexts(sfp: Sfp)
    requires sfp == Sfp("1", Falsy, Falsy, ReqValue(Str("corrosion resistant, ISO 12944 compliant")),
                        None, Some(1000))
    ensures RequirementsText(sfp.requirements) == Ok("corrosion resistant, iso 12944 compliant")
    ensures ApplicationText(sfp) == Ok(" ")
  {
    assert Lower("corrosion resistant, ISO 12944 compliant") == "corrosion resistant, iso 12944 compliant";
    assert "" + " " + "" == " ";
  }

  lemma ExampleBreakdown(sku: Sku, req: string)
    requires sku == Sku("EX-1", "Example", "Exterior", Properties("High", "", "", 8),
                        ["ISO 12944"], 420, [20, 200], [])
    requires req == "corrosion resistant, iso 12944 compliant"
    ensures var r := ScoreTexts(sku, req, 1000, " ");
            && r.score == 43
            && r.breakdown.specScore == 13 && r.breakdown.complianceScore == 10
            && r.breakdown.quantityScore == 20 && r.breakdown.applicationScore == 0
  {
    ExampleSpecPoints(sku.properties, req);
    ExampleCompliance(req);
    assert 1000 >= [20, 200][0];
    assert PackFits([20, 200], 1000);
  }

  lemma ExampleSpecPoints(p: Properties, req: string)
    requires p == Properties("High", "", "", 8)
    requires req == "corrosion resistant, iso 12944 compliant"
    ensures SpecPoints(p, req) == 4 && SpecScore(4) == 13
  {
    assert OccursAt(req, "corrosion", 0);
    HighIsTwo();
  }

  lemma ExampleCompliance(req: string)
    requires req == "corrosion resistant, iso 12944 compliant"
    ensures ComplianceMatches(["ISO 12944"], req) == ["ISO 12944"]
  {
    assert LeadingWord("ISO 12944") == "ISO";
    assert Lower("ISO") == "iso";
    assert OccursAt(req, "iso", 21);
    FullNameTestRedundant(req, "ISO 12944");
    var r := ComplianceMatches(["ISO 12944"], req);
    assert "ISO 12944" in r;
    assert |r| == 1 && r[0] in r;
  }

  // ------------------------------------------------------------- ranking

  /** One scored SFP (`sfpId` and `title` are read off `sfp`). */
  datatype Evaluation = Evaluation(sfp: Sfp, score: int, breakdown: Breakdown)

  function EvaluationScore(e: Evaluation): int { e.score }

  /** `scoreSFP(sku, sfp)` as the entry `evaluateAllSFPsForSKU` builds for it. */
  function EvaluateOne(sku: Sku, sfp: Sfp): (r: Outcome<Evaluation>)
    ensures r.Ok? <==> Readable(sfp)
    ensures r.Ok? ==> r.value.sfp == sfp && 0 <= r.value.score <= 100
                      && ScoreSfp(sku, sfp) == Ok(ScoreResult(r.value.score, r.value.breakdown))
  {
    match ScoreSfp(sku, sfp)
    case Ok(s) => Ok(Evaluation(sfp, s.score, s.breakdown))
    case Thrown => Thrown
  }

  function EvaluateWith(sku: Sku): Sfp -> Outcome<Evaluation> {
    (sfp: Sfp) => EvaluateOne(sku, sfp)
  }

  /** Scores every SFP in input order (lines 78-87); the first unreadable one throws. */
  function ScoreEach(sku: Sku, sfps: seq<Sfp>): (r: Outcome<seq<Evaluation>>)
    ensures r.Ok? <==> forall i :: 0 <= i < |sfps| ==> Readable(sfps[i])
    ensures r.Ok? ==> |r.value| == |sfps|
    ensures r.Ok? ==> forall i :: 0 <= i < |sfps| ==> EvaluateOne(sku, sfps[i]) == Ok(r.value[i])
    ensures r.Ok? ==> forall i :: 0 <= i < |sfps| ==>
              r.value[i].sfp == sfps[i] && 0 <= r.value[i].score <= 100
    ensures r.Ok? ==> forall i :: 0 <= i < |sfps| ==>
              ScoreSfp(sku, sfps[i]) == Ok(ScoreResult(r.value[i].score, r.value[i].breakdown))
  {
    var each := Seqs.Map(sfps, EvaluateWith(sku));
    var r := Collect(each);
    assert forall i :: 0 <= i < |sfps| ==> each[i] == EvaluateOne(sku, sfps[i]);
    r
  }

  /**
   * `evaluateAllSFPsForSKU`: every SFP scored, then stably sorted by
   * non-increasing score.
   */
  function EvaluateAllSfpsForSku(sku: Sku, sfps: seq<Sfp>): (r: Outcome<seq<Evaluation>>)
    ensures r.Ok? <==> forall i :: 0 <= i < |sfps| ==> Readable(sfps[i])
    ensures r.Ok? ==> |r.value| == |sfps|
    ensures r.Ok? ==> multiset(r.value) == multiset(ScoreEach(sku, sfps).value)
    ensures r.Ok? ==> Sorting.SortedDesc(r.value, EvaluationScore)
    ensures r.Ok? ==> Sorting.Stable(ScoreEach(sku, sfps).value, r.value, EvaluationScore)
  {
    match ScoreEach(sku, sfps)
    case Ok(results) =>
      Sorting.SortDescStable(results, EvaluationScore);
      Ok(Sorting.SortDesc(results, EvaluationScore))
    case Thrown => Thrown
  }

  // ----------------------------------------------------------- shortlist

  const DefaultTopN := 3
  const DefaultMinScore := 30

  function MeetsMinScore(minScore: int): Evaluation -> bool {
    (e: Evaluation) => e.score >= minScore
  }

  /**
   * `shortlistSFPs`: the first `topN` of those scoring at least
   * `minScore`, or, when none does, the first `topN` of all results.
   */
  function ShortlistSfps(results: seq<Evaluation>, topN: int, minScore: int): (r: seq<Evaluation>)
    ensures Seqs.IsSubsequence(r, results)
    ensures topN >= 0 ==> |r| <= topN
    ensures var filtered := Seqs.Filter(results, MeetsMinScore(minScore));
            if filtered != [] then
              && |r| <= |filtered| && r == filtered[..|r|]
              && (forall e :: e in r ==> e.score >= minScore)
              && (topN >= 0 ==> r == filtered[..Min(topN, |filtered|)])
            else
              && |r| <= |results| && r == results[..|r|]
              && (topN >= 0 ==> r == results[..Min(topN, |results|)])
  {
    var filtered := Seqs.Filter(results, MeetsMinScore(minScore));
    Seqs.FilterIsSubsequence(results, MeetsMinScore(minScore));
    Seqs.SubsequenceReflexive(results);
    if |filtered| == 0 then
      Seqs.SubsequencePrefix(results, results, |Take(results, topN)|);
      Take(results, topN)
    else
      var r := Take(filtered, topN);
      Seqs.SubsequencePrefix(filtered, results, |r|);
      assert forall e :: e in r ==> e in filtered && MeetsMinScore(minScore)(e);
      r
  }

  /** `shortlistSFPs(results)` with its default options. */
  function ShortlistDefault(results: seq<Evaluation>): (r: seq<Evaluation>)
    ensures |r| <= DefaultTopN
    ensures (exists i :: 0 <= i < |results| && results[i].score >= DefaultMinScore) ==>
              forall e :: e in r ==> e.score >= DefaultMinScore
    ensures (forall i :: 0 <= i < |results| ==> results[i].score < DefaultMinScore) ==>
              r == results[..Min(DefaultTopN, |results|)]
    ensures var filtered := Seqs.Filter(results, MeetsMinScore(DefaultMinScore));
            filtered != [] ==> r == filtered[..Min(DefaultTopN, |filtered|)]
  {
    var filtered := Seqs.Filter(results, MeetsMinScore(DefaultMinScore));
    assert (exists i :: 0 <= i < |results| && results[i].score >= DefaultMinScore) <==> filtered != [] by {
      Seqs.FilterMembers(results, MeetsMinScore(DefaultMinScore));
      if exists i :: 0 <= i < |results| && results[i].score >= DefaultMinScore {
        var i :| 0 <= i < |results| && results[i].score >= DefaultMinScore;
        assert results[i] in filtered;
      }
      if filtered != [] {
        assert filtered[0] in filtered;
        var i :| 0 <= i < |results| && results[i] == filtered[0];
        assert results[i].score >= DefaultMinScore;
      }
    }
    ShortlistSfps(results, DefaultTopN, DefaultMinScore)
  }

  /**
   * The options object of `shortlistSFPs`. The default `{ topN: 3,
   * minScore: 30 }` replaces only a missing object; a field missing from a
   * given object is `undefined`.
   */
  datatype ShortlistOptions = ShortlistOptions(topN: Option<int>, minScore: Option<int>)

  /**
   * `shortlistSFPs(results, options)` with the options object as passed.
   * `r.score >= undefined` is false for every entry, so a missing
   * `minScore` falls back to the unfiltered results; `slice(0, undefined)`
   * keeps everything, so a missing `topN` keeps every entry.
   */
  function ShortlistWith(results: seq<Evaluation>, options: Option<ShortlistOptions>): (r: seq<Evaluation>)
    ensures Seqs.IsSubsequence(r, results)
    ensures options.None? ==> r == ShortlistDefault(results)
    ensures options.Some? && options.value.topN.Some? && options.value.minScore.Some? ==>
              r == ShortlistSfps(results, options.value.topN.value, options.value.minScore.value)
    ensures options.Some? && options.value.minScore.None? ==>
              r == (if options.value.topN.Some? then Take(results, options.value.topN.value) else results)
    ensures options.Some? && options.value.topN.None? && options.value.minScore.Some? ==>
              r == ShortlistSfps(results, |results|, options.value.minScore.value)
  {
    Seqs.SubsequenceReflexive(results);
    match options
    case None => ShortlistDefault(results)
    case Some(ShortlistOptions(topN, minScore)) =>
      var filtered := if minScore.Some? then Seqs.Filter(results, MeetsMinScore(minScore.value)) else [];
      var base := if filtered == [] then results else filtered;
      if minScore.Some? then
        var n := if topN.Some? then topN.value else |results|;
        var r := if topN.Some? then Take(base, n) else base;
        assert r == ShortlistSfps(results, n, minScore.value) by {
          if topN.None? {
            assert |base| <= |results|;
            assert Take(base, n) == base;
          }
        }
        r
      else if topN.Some? then
        var r := Take(results, topN.value);
        Seqs.SubsequencePrefix(results, results, |r|);
        r
      else results
  }

  lemma {:induction false} FilterRankedIsPrefix(results: seq<Evaluation>, minScore: int)
    requires Sorting.SortedDesc(results, EvaluationScore)
    ensures var f := Seqs.Filter(results, MeetsMinScore(minScore));
            |f| <= |results| && f == results[..|f|]
  {
    if results != [] {
      var p := MeetsMinScore(minScore);
      var tail := results[1..];
      assert Sorting.SortedDesc(tail, EvaluationScore);
      if p(results[0]) {
        FilterRankedIsPrefix(tail, minScore);
        var ft := Seqs.Filter(tail, p);
        assert Seqs.Filter(results, p) == [results[0]] + ft;
        assert [results[0]] + tail[..|ft|] == results[..|ft| + 1];
      } else {
        assert forall i :: 0 <= i < |tail| ==> !p(tail[i]) by {
          forall i | 0 <= i < |tail|
            ensures !p(tail[i])
          {
            assert EvaluationScore(results[0]) >= EvaluationScore(results[i + 1]);
          }
        }
        Seqs.FilterNone(tail, p);
        assert Seqs.Filter(results, p) == [];
      }
    }
  }

  /**
   * On a ranked input (the output of `evaluateAllSFPsForSKU`) the
   * shortlist is a prefix of the ranking: no lower-scored entry is kept
   * while a higher-scored one is skipped.
   */
  lemma ShortlistOfRankedIsPrefix(results: seq<Evaluation>, topN: int, minScore: int)
    requires Sorting.SortedDesc(results, EvaluationScore)
    ensures var r := ShortlistSfps(results, topN, minScore);
            |r| <= |results| && r == results[..|r|]
  {
    FilterRankedIsPrefix(results, minScore);
  }
}

=== FILE: pipeline.dfy ===
/**
 * The stages of the multi-SFP run (src/context/WorkflowContext.js,
 * `simulateMultiSFPSteps`) as pure functions: deadline filter, spec and
 * compliance keyword filter, best-SKU scoring with the 40-point threshold,
 * top-3 shortlist, pricing, and the final selection.
 *
 * Every elimination stage splits the SFPs it receives into the ones it
 * keeps (`active`) and the ones it drops (`eliminated`, each with a reason);
 * `PartitionOf` says the two sides add up to the input, SFP for SFP.
 */
module Pipeline {
  import opened Js
  import opened Domain
  import Seqs
  import Sorting
  import Matching

  // ---------------------------------------------------------------- records

  const DayMs := 86400000
  const MinDeadlineDays := 7
  const MinScoreThreshold := 40
  const TopN := 3
  /** `Number(sfp.quantity) || 1000` in the scoring, pricing and final stages. */
  const DefaultQuantity := 1000

  datatype StepName = LoadStep | DeadlineStep | SpecStep | ScoringStep | ShortlistStep

  /** Why an SFP was dropped (the interpolated `reason` strings). */
  datatype Reason =
    | InsufficientDeadline(daysRemaining: Option<int>)
    | MissingKeywords
    | BelowThreshold(score: int, threshold: int)
    | RankedBeyondTop(n: int)

  datatype Elimination = Elimination(sfp: Sfp, reason: Reason)

  /** `{ ...sku, score, breakdown }`: the best SKU for an SFP. */
  datatype MatchedSku = MatchedSku(sku: Sku, score: int, breakdown: Matching.Breakdown)

  /** One entry of `scoredSFPs`. */
  datatype Scored = Scored(sfp: Sfp, score: int, matchedSku: Option<MatchedSku>, estimatedCost: int)

  /** One entry of `stepStates`; `scoredData` is present on the scoring step only. */
  datatype StepState = StepState(
    name: StepName,
    active: seq<Sfp>,
    eliminated: seq<Elimination>,
    scoredData: Option<seq<Scored>>)

  function ElimSfp(e: Elimination): Sfp { e.sfp }

  function ScoredSfp(s: Scored): Sfp { s.sfp }

  function ScoredScore(s: Scored): int { s.score }

  function EliminatedSfps(es: seq<Elimination>): seq<Sfp> { Seqs.Map(es, ElimSfp) }

  /** `active` and `eliminated` together hold exactly the SFPs of `prev`. */
  predicate PartitionOf(prev: seq<Sfp>, st: StepState) {
    && |st.active| + |st.eliminated| == |prev|
    && multiset(st.active) + multiset(EliminatedSfps(st.eliminated)) == multiset(prev)
  }

  /** ... and each side keeps the order of `prev`. */
  predicate OrderedPartitionOf(prev: seq<Sfp>, st: StepState) {
    && PartitionOf(prev, st)
    && Seqs.IsSubsequence(st.active, prev)
    && Seqs.IsSubsequence(EliminatedSfps(st.eliminated), prev)
  }

  /** The first step state: everything active, nothing eliminated. */
  function InitialLoad(all: seq<Sfp>): (st: StepState)
    ensures OrderedPartitionOf(all, st) && st.active == all
  {
    Seqs.SubsequenceReflexive(all);
    StepState(LoadStep, all, [], None)
  }

  /**
   * A filter stage: the SFPs passing `keep` stay, the others are dropped
   * with the reason `drop` gives them. Both sides keep the input order.
   */
  function Split(name: StepName, prev: seq<Sfp>, keep: Sfp -> bool, drop: Sfp -> Elimination)
    : (st: StepState)
    requires forall x :: drop(x).sfp == x
    ensures st.name == name && st.scoredData.None?
    ensures st.active == Seqs.Filter(prev, keep)
    ensures EliminatedSfps(st.eliminated) == Seqs.Reject(prev, keep)
    ensures forall i :: 0 <= i < |st.eliminated| ==> st.eliminated[i] == drop(Seqs.Reject(prev, keep)[i])
    ensures OrderedPartitionOf(prev, st)
  {
    var eliminated := Seqs.Map(Seqs.Reject(prev, keep), drop);
    assert EliminatedSfps(eliminated) == Seqs.Reject(prev, keep);
    Seqs.OrderedPartition(prev, keep);
    StepState(name, Seqs.Filter(prev, keep), eliminated, None)
  }

  // --------------------------------------------------------------- deadline

  /** `Math.ceil((deadline - now) / 86400000)`; None (NaN) for an unparsable deadline. */
  function DaysRemaining(now: int, deadline: Option<int>): (r: Option<int>)
    ensures r.Some? <==> deadline.Some?
    ensures r.Some? ==> DayMs * (r.value - 1) < deadline.value - now <= DayMs * r.value
  {
    match deadline
    case None => None
    case Some(d) => Some(CeilDiv(d - now, DayMs))
  }

  /** Kept unless `daysRemaining < 7`; NaN compares false, so a bad date is kept. */
  predicate MeetsDeadline(now: int, sfp: Sfp) {
    match DaysRemaining(now, sfp.deadline)
    case None => true
    case Some(days) => !(days < MinDeadlineDays)
  }

  function DeadlineTest(now: int): Sfp -> bool {
    (sfp: Sfp) => MeetsDeadline(now, sfp)
  }

  function DeadlineDrop(now: int): Sfp -> Elimination {
    (sfp: Sfp) => Elimination(sfp, InsufficientDeadline(DaysRemaining(now, sfp.deadline)))
  }

  /**
   * The boundary in milliseconds: an SFP with a deadline stays iff more
   * than six whole days remain. Exactly seven days stays, and so does
   * six days and one millisecond.
   */
  lemma DeadlineBoundary(now: int, sfp: Sfp)
    requires sfp.deadline.Some?
    ensures MeetsDeadline(now, sfp) <==> sfp.deadline.value - now > 6 * DayMs
  {
    var days := DaysRemaining(now, sfp.deadline).value;
    var diff := sfp.deadline.value - now;
    if days >= 7 {
      assert DayMs * (days - 1) >= DayMs * 6;
    } else {
      assert DayMs * days <= DayMs * 6;
    }
  }

  /** `new Date(undefined)` is an Invalid Date: an SFP without a deadline is never dropped here. */
  lemma MissingDeadlineKept(now: int, sfp: Sfp)
    requires sfp.deadline.None?
    ensures MeetsDeadline(now, sfp)
  {
  }

  /** The deadline step (lines 104-118). */
  function DeadlineStage(now: int, active: seq<Sfp>): (st: StepState)
    ensures OrderedPartitionOf(active, st)
    ensures forall x :: x in st.active <==> x in active && MeetsDeadline(now, x)
    ensures st.active == Seqs.Filter(active, DeadlineTest(now))
    ensures EliminatedSfps(st.eliminated) == Seqs.Reject(active, DeadlineTest(now))
    ensures forall e :: e in st.eliminated ==>
              && e.sfp in active && !MeetsDeadline(now, e.sfp)
              && e.reason == InsufficientDeadline(DaysRemaining(now, e.sfp.deadline))
              && e.reason.daysRemaining.Some? && e.reason.daysRemaining.value < MinDeadlineDays
  {
    var st := Split(DeadlineStep, active, DeadlineTest(now), DeadlineDrop(now));
    Seqs.FilterMembers(active, DeadlineTest(now));
    DeadlineDropReasons(now, active, st.eliminated);
    st
  }

  /** Every SFP the deadline step drops had a parsable deadline fewer than seven days away. */
  lemma DeadlineDropReasons(now: int, active: seq<Sfp>, eliminated: seq<Elimination>)
    requires |eliminated| == |Seqs.Reject(active, DeadlineTest(now))|
    requires forall i :: 0 <= i < |eliminated| ==>
               eliminated[i] == DeadlineDrop(now)(Seqs.Reject(active, DeadlineTest(now))[i])
    ensures forall e :: e in eliminated ==>
              && e.sfp in active && !MeetsDeadline(now, e.sfp)
              && e.reason == InsufficientDeadline(DaysRemaining(now, e.sfp.deadline))
              && e.reason.daysRemaining.Some? && e.reason.daysRemaining.value < MinDeadlineDays
  {
    var rejected := Seqs.Reject(active, DeadlineTest(now));
    Seqs.FilterMembers(active, DeadlineTest(now));
    forall e | e in eliminated
      ensures e.sfp in active && !MeetsDeadline(now, e.sfp)
      ensures e.reason == InsufficientDeadline(DaysRemaining(now, e.sfp.deadline))
      ensures e.reason.daysRemaining.Some? && e.reason.daysRemaining.value < MinDeadlineDays
    {
      var i :| 0 <= i < |eliminated| && eliminated[i] == e;
      assert rejected[i] in rejected;
    }
  }

  // ------------------------------------------------------------------- spec

  /** Any of the five keywords in the lower-cased requirements. */
  predicate HasMinRequirements(req: string) {
    || Includes(req, "corrosion") || Includes(req, "uv") || Includes(req, "chemical")
    || Includes(req, "iso") || Includes(req, "astm")
  }

  predicate PassesSpec(sfp: Sfp) {
    match RequirementsText(sfp.requirements)
    case Ok(req) => HasMinRequirements(req)
    case Thrown => false
  }

  function SpecTest(): Sfp -> bool {
    (sfp: Sfp) => PassesSpec(sfp)
  }

  function SpecDrop(): Sfp -> Elimination {
    (sfp: Sfp) => Elimination(sfp, MissingKeywords)
  }

  /** Missing requirements become "", which names no keyword: such an SFP is dropped. */
  lemma MissingRequirementsDropped(sfp: Sfp)
    requires sfp.requirements == ReqValue(Falsy) || sfp.requirements == ReqList([])
    ensures !PassesSpec(sfp)
  {
  }

  /**
   * The spec step (lines 131-142). The first SFP whose requirements are a
   * truthy non-string throws at `toLowerCase`.
   */
  function SpecStage(active: seq<Sfp>): (r: Outcome<StepState>)
    ensures r.Thrown? <==> exists i :: 0 <= i < |active| && active[i].requirements == ReqValue(NonString)
    ensures r.Ok? ==> OrderedPartitionOf(active, r.value)
    ensures r.Ok? ==> forall x :: x in r.value.active <==> x in active && PassesSpec(x)
    ensures r.Ok? ==> r.value.active == Seqs.Filter(active, SpecTest())
    ensures r.Ok? ==> EliminatedSfps(r.value.eliminated) == Seqs.Reject(active, SpecTest())
    ensures r.Ok? ==> forall e :: e in r.value.eliminated ==>
              e.sfp in active && !PassesSpec(e.sfp) && e.reason == MissingKeywords
  {
    if exists i :: 0 <= i < |active| && active[i].requirements == ReqValue(NonString) then Thrown
    else
      var st := Split(SpecStep, active, SpecTest(), SpecDrop());
      Seqs.FilterMembers(active, SpecTest());
      SpecDropReasons(active, st.eliminated);
      Ok(st)
  }

  /** Every SFP the spec step drops is one whose requirements name no keyword. */
  lemma SpecDropReasons(active: seq<Sfp>, eliminated: seq<Elimination>)
    requires |eliminated| == |Seqs.Reject(active, SpecTest())|
    requires forall i :: 0 <= i < |eliminated| ==>
               eliminated[i] == SpecDrop()(Seqs.Reject(active, SpecTest())[i])
    ensures forall e :: e in eliminated ==>
              e.sfp in active && !PassesSpec(e.sfp) && e.reason == MissingKeywords
  {
    var rejected := Seqs.Reject(active, SpecTest());
    forall e | e in eliminated
      ensures e.sfp in active && !PassesSpec(e.sfp) && e.reason == MissingKeywords
    {
      var i :| 0 <= i < |eliminated| && eliminated[i] == e;
      assert rejected[i] in rejected;
    }
  }

  // ---------------------------------------------------------------- scoring

  /**
   * The `forEach` over the catalogue, on the list of its scores: the first
   * index whose score is strictly greater than the best so far, starting
   * from 0; None when no score is positive.
   */
  function FirstBest(scores: seq<int>): (r: Option<nat>)
    ensures r.None? <==> forall j :: 0 <= j < |scores| ==> scores[j] <= 0
    ensures r.Some? ==>
              && r.value < |scores| && scores[r.value] > 0
              && (forall j :: 0 <= j < |scores| ==> scores[j] <= scores[r.value])
              && (forall j :: 0 <= j < r.value ==> scores[j] < scores[r.value])
    decreases |scores|
  {
    if scores == [] then None
    else
      var n := |scores| - 1;
      var front := scores[..n];
      assert forall j :: 0 <= j < n ==> front[j] == scores[j];
      var prev := FirstBest(front);
      var best := if prev.Some? then scores[prev.value] else 0;
      if scores[n] > best then Some(n) else prev
  }

  function ScoreWith(req: string, qty: int, app: string): Sku -> int {
    (sku: Sku) => Matching.ScoreTexts(sku, req, qty, app).score
  }

  /** The best SKU for already lower-cased texts. */
  function BestOf(catalog: seq<Sku>, req: string, qty: int, app: string): (r: Option<MatchedSku>)
    ensures r.Some? ==>
              && r.value.sku in catalog && r.value.score > 0
              && Matching.ScoreTexts(r.value.sku, req, qty, app)
                 == Matching.ScoreResult(r.value.score, r.value.breakdown)
  {
    var scores := Seqs.Map(catalog, ScoreWith(req, qty, app));
    match FirstBest(scores)
    case None => None
    case Some(i) => Some(MatchedSku(catalog[i], scores[i], Matching.ScoreTexts(catalog[i], req, qty, app).breakdown))
  }

  /** The scoring of one SFP (lines 173-195): best SKU, its score, and the estimated cost. */
  function ScoreOne(catalog: seq<Sku>, sfp: Sfp): (r: Outcome<Scored>)
    ensures r.Thrown? <==> catalog != [] && !Readable(sfp)
    ensures r.Ok? ==> r.value.sfp == sfp
    ensures r.Ok? ==> (r.value.matchedSku.None? <==> r.value.score == 0)
    ensures r.Ok? && r.value.matchedSku.Some? ==>
              && r.value.score == r.value.matchedSku.value.score > 0
              && r.value.estimatedCost
                 == Price(r.value.matchedSku.value.sku.costPerLiter, QuantityOf(sfp)).material
  {
    if catalog == [] then Ok(Scored(sfp, 0, None, 0))
    else
      match (RequirementsText(sfp.requirements), Matching.ApplicationText(sfp))
      case (Ok(req), Ok(app)) =>
        var best := BestOf(catalog, req, NumberOr(sfp.quantity, 0), app);
        var unitPrice := if best.Some? then best.value.sku.costPerLiter else 0;
        Ok(Scored(sfp, if best.Some? then best.value.score else 0, best, unitPrice * QuantityOf(sfp)))
      case _ => Thrown
  }

  /**
   * The SKU kept for an SFP is the catalogue's first SKU of highest score
   * (as `scoreSFP` computes it), provided that score is positive; with no
   * positive score the SFP keeps score 0 and no SKU.
   */
  lemma ScoreOneIsBest(catalog: seq<Sku>, sfp: Sfp)
    requires ScoreOne(catalog, sfp).Ok?
    ensures var s := ScoreOne(catalog, sfp).value;
            && (forall j :: 0 <= j < |catalog| ==>
                  Matching.ScoreSfp(catalog[j], sfp).Ok?
                  && Matching.ScoreSfp(catalog[j], sfp).value.score <= s.score)
            && (s.matchedSku.None? <==> forall j :: 0 <= j < |catalog| ==> Matching.ScoreSfp(catalog[j], sfp).value.score <= 0)
            && (s.matchedSku.Some? ==>
                  exists i :: (0 <= i < |catalog| && s.matchedSku.value.sku == catalog[i]
                    && Matching.ScoreSfp(catalog[i], sfp).value.score == s.score
                    && forall j :: 0 <= j < i ==> Matching.ScoreSfp(catalog[j], sfp).value.score < s.score))
  {
    if catalog != [] {
      var req := RequirementsText(sfp.requirements).value;
      var app := Matching.ApplicationText(sfp).value;
      var qty := NumberOr(sfp.quantity, 0);
      assert forall j :: 0 <= j < |catalog| ==>
               Matching.ScoreSfp(catalog[j], sfp) == Ok(Matching.ScoreTexts(catalog[j], req, qty, app));
      BestOfIsBest(catalog, req, qty, app);
    }
  }

  /** `BestOf` keeps the first SKU of highest positive score, or none when no score is positive. */
  lemma BestOfIsBest(catalog: seq<Sku>, req: string, qty: int, app: string)
    ensures var b := BestOf(catalog, req, qty, app);
            var best := if b.Some? then b.value.score else 0;
            && (forall j :: 0 <= j < |catalog| ==> Matching.ScoreTexts(catalog[j], req, qty, app).score <= best)
            && (b.None? <==> forall j :: 0 <= j < |catalog| ==> Matching.ScoreTexts(catalog[j], req, qty, app).score <= 0)
            && (b.Some? ==>
                  exists i :: (0 <= i < |catalog| && b.value.sku == catalog[i]
                    && Matching.ScoreTexts(catalog[i], req, qty, app).score == best
                    && forall j :: 0 <= j < i ==> Matching.ScoreTexts(catalog[j], req, qty, app).score < best))
  {
    var scores := Seqs.Map(catalog, ScoreWith(req, qty, app));
    assert forall j :: 0 <= j < |catalog| ==> scores[j] == Matching.ScoreTexts(catalog[j], req, qty, app).score;
  }

  /** `activeSFPs.map(...)`; the first SFP whose texts cannot be lower-cased throws. */
  function ScoreAll(catalog: seq<Sku>, active: seq<Sfp>): (r: Outcome<seq<Scored>>)
    ensures r.Thrown? <==> catalog != [] && exists i :: 0 <= i < |active| && !Readable(active[i])
    ensures r.Ok? ==> |r.value| == |active|
    ensures r.Ok? ==> forall i :: 0 <= i < |active| ==> ScoreOne(catalog, active[i]) == Ok(r.value[i])
  {
    var each := Seqs.Map(active, ScoreOneIn(catalog));
    var r := Collect(each);
    assert r.Thrown? <==> catalog != [] && exists i :: 0 <= i < |active| && !Readable(active[i]) by {
      if r.Thrown? {
        var i :| 0 <= i < |each| && each[i].Thrown?;
        assert !Readable(active[i]);
      }
      if catalog != [] && exists i :: 0 <= i < |active| && !Readable(active[i]) {
        var i :| 0 <= i < |active| && !Readable(active[i]);
        assert each[i].Thrown?;
      }
    }
    r
  }

  function ScoreOneIn(catalog: seq<Sku>): Sfp -> Outcome<Scored> {
    (sfp: Sfp) => ScoreOne(catalog, sfp)
  }

  function AboveThreshold(): Scored -> bool {
    (s: Scored) => s.score >= MinScoreThreshold
  }

  function ThresholdDrop(s: Scored): Elimination {
    Elimination(s.sfp, BelowThreshold(s.score, MinScoreThreshold))
  }

  /**
   * The threshold split of a ranked list (lines 203-218): entries scoring
   * at least 40 stay, in rank order, as `scoredData`; their SFPs become
   * the active list; the others are dropped with their score.
   */
  function Threshold(ranked: seq<Scored>): (st: StepState)
    requires Sorting.SortedDesc(ranked, ScoredScore)
    ensures st.name == ScoringStep && st.scoredData.Some?
    ensures var passed := st.scoredData.value;
            && st.active == Seqs.Map(passed, ScoredSfp)
            && Sorting.SortedDesc(passed, ScoredScore)
            && Seqs.IsSubsequence(passed, ranked)
            && (forall s :: s in ranked ==> (s in passed <==> s.score >= MinScoreThreshold))
    ensures st.scoredData.value == Seqs.Filter(ranked, AboveThreshold())
    ensures st.eliminated == Seqs.Map(Seqs.Reject(ranked, AboveThreshold()), ThresholdDrop)
    ensures |st.active| + |st.eliminated| == |ranked|
    ensures forall e :: e in st.eliminated ==>
              e.reason.BelowThreshold? && e.reason.score < MinScoreThreshold
              && e.reason.threshold == MinScoreThreshold
  {
    var passed := Seqs.Filter(ranked, AboveThreshold());
    var dropped := Seqs.Reject(ranked, AboveThreshold());
    Seqs.OrderedPartition(ranked, AboveThreshold());
    Seqs.FilterMembers(ranked, AboveThreshold());
    SortedFilter(ranked, AboveThreshold());
    var eliminated := Seqs.Map(dropped, ThresholdDrop);
    ThresholdDropReasons(dropped);
    StepState(ScoringStep, Seqs.Map(passed, ScoredSfp), eliminated, Some(passed))
  }

  lemma ThresholdDropReasons(dropped: seq<Scored>)
    requires forall s :: s in dropped ==> s.score < MinScoreThreshold
    ensures forall e :: e in Seqs.Map(dropped, ThresholdDrop) ==>
              e.reason.BelowThreshold? && e.reason.score < MinScoreThreshold
              && e.reason.threshold == MinScoreThreshold
  {
    var es := Seqs.Map(dropped, ThresholdDrop);
    forall e | e in es
      ensures e.reason.BelowThreshold? && e.reason.score < MinScoreThreshold
    {
      var i :| 0 <= i < |es| && es[i] == e;
      assert dropped[i] in dropped;
    }
  }

  /** The scoring step (lines 173-218): score every SFP, rank, apply the threshold. */
  function ScoringStage(catalog: seq<Sku>, active: seq<Sfp>): (r: Outcome<StepState>)
    ensures r.Thrown? <==> catalog != [] && exists i :: 0 <= i < |active| && !Readable(active[i])
    ensures r.Ok? ==> ScoreAll(catalog, active).Ok? && r.value == Threshold(Sorting.Rank(ScoreAll(catalog, active).value, ScoredScore))
    ensures r.Ok? ==> PartitionOf(active, r.value)
    ensures r.Ok? ==> forall s :: s in r.value.scoredData.value ==> s.score >= MinScoreThreshold && s.matchedSku.Some?
  {
    match ScoreAll(catalog, active)
    case Thrown => Thrown
    case Ok(scored) =>
      var ranked := Sorting.Rank(scored, ScoredScore);
      var st := Threshold(ranked);
      ScoringPartition(active, scored, ranked, AboveThreshold());
      ScoredHaveSku(catalog, active, scored, ranked);
      Ok(st)
  }

  /** The threshold split of the ranked list partitions the stage's input. */
  lemma ScoringPartition(active: seq<Sfp>, scored: seq<Scored>, ranked: seq<Scored>, p: Scored -> bool)
    requires |scored| == |active| && forall i :: 0 <= i < |active| ==> scored[i].sfp == active[i]
    requires multiset(ranked) == multiset(scored)
    ensures var passed, dropped := Seqs.Filter(ranked, p), Seqs.Reject(ranked, p);
            multiset(Seqs.Map(passed, ScoredSfp))
            + multiset(EliminatedSfps(Seqs.Map(dropped, ThresholdDrop))) == multiset(active)
  {
    var passed, dropped := Seqs.Filter(ranked, p), Seqs.Reject(ranked, p);
    Seqs.FilterPartitionMultiset(ranked, p);
    DropSfps(dropped);
    Seqs.MapConcat(passed, dropped, ScoredSfp);
    Seqs.MapMultiset(passed + dropped, scored, ScoredSfp);
    assert Seqs.Map(scored, ScoredSfp) == active;
  }

  lemma DropSfps(dropped: seq<Scored>)
    ensures EliminatedSfps(Seqs.Map(dropped, ThresholdDrop)) == Seqs.Map(dropped, ScoredSfp)
  {
  }

  /** Every scored entry with a positive score carries its SKU. */
  lemma ScoredHaveSku(catalog: seq<Sku>, active: seq<Sfp>, scored: seq<Scored>, ranked: seq<Scored>)
    requires ScoreAll(catalog, active) == Ok(scored)
    requires multiset(ranked) == multiset(scored)
    ensures forall s :: s in ranked && s.score > 0 ==> s.matchedSku.Some?
  {
    forall s | s in ranked && s.score > 0
      ensures s.matchedSku.Some?
    {
      assert s in multiset(scored);
      var i :| 0 <= i < |scored| && scored[i] == s;
      ScoreOneHasSku(catalog, active[i], s);
    }
  }

  lemma ScoreOneHasSku(catalog: seq<Sku>, sfp: Sfp, s: Scored)
    requires ScoreOne(catalog, sfp) == Ok(s) && s.score > 0
    ensures s.matchedSku.Some?
  {
  }

  lemma SortedFilter(s: seq<Scored>, p: Scored -> bool)
    requires Sorting.SortedDesc(s, ScoredScore)
    ensures Sorting.SortedDesc(Seqs.Filter(s, p), ScoredScore)
  {
    var f := Seqs.Filter(s, p);
    Seqs.FilterIsSubsequence(s, p);
    SubsequenceSorted(f, s);
  }

  lemma {:induction false} SubsequenceSorted(a: seq<Scored>, b: seq<Scored>)
    requires Seqs.IsSubsequence(a, b) && Sorting.SortedDesc(b, ScoredScore)
    ensures Sorting.SortedDesc(a, ScoredScore)
    decreases |b|
  {
    if a != [] {
      if a[0] == b[0] {
        SubsequenceSorted(a[1..], b[1..]);
        Seqs.SubsequenceMembers(a[1..], b[1..]);
        forall j | 0 < j < |a|
          ensures a[0].score >= a[j].score
        {
          assert a[j] == a[1..][j - 1];
          assert a[j] in a[1..];
          var k :| 0 <= k < |b[1..]| && b[1..][k] == a[j];
          assert b[k + 1] == a[j];
        }
      } else {
        SubsequenceSorted(a, b[1..]);
      }
    }
  }

  // -------------------------------------------------------------- shortlist

  function BeyondTopDrop(): Sfp -> Elimination {
    (sfp: Sfp) => Elimination(sfp, RankedBeyondTop(TopN))
  }

  /** The shortlist step (lines 238-244): the first three stay, the rest are dropped. */
  function ShortlistStage(active: seq<Sfp>): (st: StepState)
    ensures OrderedPartitionOf(active, st)
    ensures |st.active| == Min(TopN, |active|) && st.active == active[..|st.active|]
    ensures EliminatedSfps(st.eliminated) == active[|st.active|..]
    ensures forall e :: e in st.eliminated ==> e.reason == RankedBeyondTop(3)
  {
    var keep := Take(active, TopN);
    var rest := Drop(active, TopN);
    var eliminated := Seqs.Map(rest, BeyondTopDrop());
    assert EliminatedSfps(eliminated) == rest;
    assert active == keep + rest;
    assert multiset(active) == multiset(keep) + multiset(rest);
    Seqs.SubsequenceReflexive(active);
    Seqs.SubsequencePrefix(active, active, |keep|);
    SuffixIsSubsequence(active, |keep|);
    StepState(ShortlistStep, keep, eliminated, None)
  }

  lemma {:induction false} SuffixIsSubsequence(s: seq<Sfp>, k: nat)
    requires k <= |s|
    ensures Seqs.IsSubsequence(s[k..], s)
  {
    if k == 0 {
      Seqs.SubsequenceReflexive(s);
    } else {
      SuffixIsSubsequence(s[1..], k - 1);
      assert s[1..][k - 1..] == s[k..];
      Seqs.SubsequenceExtend(s[k..], s[1..], s[0]);
      assert [s[0]] + s[1..] == s;
    }
  }

  // ---------------------------------------------------------------- pricing

  /** Material, implementation (20%), support (10%), contingency (3%) and their total. */
  datatype Cost = Cost(material: int, implementation: int, support: int, contingency: int, total: int)

  /**
   * The cost build-up of lines 262-268 (and 316-321): each percentage is
   * rounded on its own and the total is the exact sum of the rounded parts,
   * so it lies within 1.5 of 133% of the material cost.
   */
  function Price(unitPrice: int, qty: int): (c: Cost)
    ensures c.material == unitPrice * qty
    ensures c.total == c.material + c.implementation + c.support + c.contingency
    ensures 10 * c.implementation - 5 <= 2 * c.material < 10 * c.implementation + 5
    ensures 20 * c.support - 10 <= 2 * c.material < 20 * c.support + 10
    ensures 200 * c.contingency - 100 <= 6 * c.material < 200 * c.contingency + 100
    ensures -150 <= 100 * c.total - 133 * c.material < 150
  {
    Markup(unitPrice * qty)
  }

  /** The cost build-up on a material cost `m`. */
  function Markup(m: int): (c: Cost)
    ensures c.material == m
    ensures c.total == c.material + c.implementation + c.support + c.contingency
    ensures 10 * c.implementation - 5 <= 2 * m < 10 * c.implementation + 5
    ensures 20 * c.support - 10 <= 2 * m < 20 * c.support + 10
    ensures 200 * c.contingency - 100 <= 6 * m < 200 * c.contingency + 100
    ensures -150 <= 100 * c.total - 133 * m < 150
  {
    var i := RoundDiv(2 * m, 10);
    var s := RoundDiv(m, 10);
    var k := RoundDiv(3 * m, 100);
    MarkupTotal(m, i, s, k);
    Cost(m, i, s, k, m + i + s + k)
  }

  /** Three parts each rounded to within half a unit sum to within 1.5 of 33% of `m`. */
  lemma MarkupTotal(m: int, i: int, s: int, k: int)
    requires 10 * i - 5 <= 2 * m < 10 * i + 5
    requires 20 * s - 10 <= 2 * m < 20 * s + 10
    requires 200 * k - 100 <= 6 * m < 200 * k + 100
    ensures -150 <= 100 * (m + i + s + k) - 133 * m < 150
  {
  }

  /** 420 per litre, 1000 litres: 420000 + 84000 + 42000 + 12600 = 558600. */
  lemma PriceExample()
    ensures Price(420, 1000) == Cost(420000, 84000, 42000, 12600, 558600)
  {
  }

  /** One entry of `pricingResults`. */
  datatype PricingResult = PricingResult(
    sfpId: string,
    sfpTitle: Text,
    sku: string,
    productName: string,
    unitPrice: int,
    quantity: int,
    cost: Cost)

  /** `(tech.scoredSFPs || []).find(s => s.sfp.id === id)`. */
  function FindById(scored: seq<Scored>, id: string): (r: Option<Scored>)
    ensures r.None? <==> forall i :: 0 <= i < |scored| ==> scored[i].sfp.id != id
    ensures r.Some? ==> exists i :: 0 <= i < |scored| && scored[i] == r.value && r.value.sfp.id == id
                          && forall j :: 0 <= j < i ==> scored[j].sfp.id != id
  {
    if scored == [] then None
    else if scored[0].sfp.id == id then Some(scored[0])
    else
      var r := FindById(scored[1..], id);
      assert forall i :: 0 < i < |scored| ==> scored[i] == scored[1..][i - 1];
      r
  }

  function QuantityOf(sfp: Sfp): (q: int)
    ensures q != 0
    ensures sfp.quantity.Some? && sfp.quantity.value != 0 ==> q == sfp.quantity.value
    ensures sfp.quantity.None? || sfp.quantity.value == 0 ==> q == 1000
  {
    NumberOr(sfp.quantity, DefaultQuantity)
  }

  /** Prices one shortlisted SFP, if it has a scored entry with a matched SKU. */
  function PriceOne(scored: seq<Scored>, sfp: Sfp): (r: Option<PricingResult>)
    ensures r.Some? <==> var item := FindById(scored, sfp.id); item.Some? && item.value.matchedSku.Some?
    ensures r.Some? ==> r.value.sfpId == sfp.id && r.value.sfpTitle == sfp.title
                        && r.value.quantity == QuantityOf(sfp)
                        && r.value.cost == Price(r.value.unitPrice, QuantityOf(sfp))
    ensures r.Some? ==> var m := FindById(scored, sfp.id).value.matchedSku.value;
                        && r.value.sku == m.sku.sku && r.value.productName == m.sku.productName
                        && r.value.unitPrice == m.sku.costPerLiter
  {
    match FindById(scored, sfp.id)
    case Some(Scored(_, _, Some(m), _)) =>
      var unitPrice := m.sku.costPerLiter;
      Some(PricingResult(sfp.id, sfp.title, m.sku.sku, m.sku.productName, unitPrice, QuantityOf(sfp),
                         Price(unitPrice, QuantityOf(sfp))))
    case _ => None
  }

  function PriceWith(scored: seq<Scored>): Sfp -> Option<PricingResult> {
    (x: Sfp) => PriceOne(scored, x)
  }

  function SomePricing(p: PricingResult): Option<PricingResult> { Some(p) }

  predicate IsPriced(o: Option<PricingResult>) { o.Some? }

  /**
   * The pricing step (lines 259-290): the prices of the shortlisted SFPs
   * that can be priced, in shortlist order; the others are skipped.
   */
  function PricingStage(scored: seq<Scored>, shortlist: seq<Sfp>): (r: seq<PricingResult>)
    ensures |r| <= |shortlist|
    ensures Seqs.Map(r, SomePricing) == Seqs.Filter(Seqs.Map(shortlist, PriceWith(scored)), IsPriced)
    ensures (forall i :: 0 <= i < |shortlist| ==> PriceOne(scored, shortlist[i]).Some?) ==> |r| == |shortlist|
  {
    var all := Seqs.Map(shortlist, PriceWith(scored));
    assert forall i :: 0 <= i < |shortlist| ==> all[i] == PriceOne(scored, shortlist[i]);
    PricedOnly(all)
  }

  /** The prices present in `all`, in order: the `continue` past an unpriceable SFP. */
  function PricedOnly(all: seq<Option<PricingResult>>): (r: seq<PricingResult>)
    ensures |r| <= |all|
    ensures Seqs.Map(r, SomePricing) == Seqs.Filter(all, IsPriced)
    ensures (forall i :: 0 <= i < |all| ==> all[i].Some?) ==> |r| == |all|
  {
    if all == [] then []
    else
      var rest := PricedOnly(all[1..]);
      assert forall i :: 0 < i < |all| ==> all[i] == all[1..][i - 1];
      match all[0]
      case Some(p) =>
        assert Seqs.Map([p] + rest, SomePricing) == [Some(p)] + Seqs.Map(rest, SomePricing);
        [p] + rest
      case None => rest
  }

  /**
   * Every SFP the scoring step kept has a priced entry: the lookup by id
   * finds an entry that passed the threshold, hence has a SKU.
   */
  lemma ShortlistFullyPriced(passed: seq<Scored>, shortlist: seq<Sfp>)
    requires forall s :: s in passed ==> s.matchedSku.Some?
    requires forall x :: x in shortlist ==> x in Seqs.Map(passed, ScoredSfp)
    ensures |PricingStage(passed, shortlist)| == |shortlist|
  {
    forall i | 0 <= i < |shortlist|
      ensures PriceOne(passed, shortlist[i]).Some?
    {
      HasEntry(passed, shortlist[i]);
    }
  }

  lemma HasEntry(passed: seq<Scored>, sfp: Sfp)
    requires sfp in Seqs.Map(passed, ScoredSfp)
    ensures FindById(passed, sfp.id).Some?
  {
    var k :| 0 <= k < |passed| && Seqs.Map(passed, ScoredSfp)[k] == sfp;
    assert passed[k].sfp.id == sfp.id;
  }

  // ---------------------------------------------------------------- final

  /** "Highest match score (score%) among n shortlisted SFPs". */
  datatype Justification = HighestMatchScore(score: int, shortlisted: int)

  /** `technical`: the sales-agent fields are never set, so their defaults always apply. */
  datatype Technical = Technical(projectType: string, quantity: int, compliance: string, specifications: Properties)

  datatype FinalSelection = FinalSelection(
    sfp: Sfp,
    sku: MatchedSku,
    matchScore: int,
    justification: Justification,
    technical: Technical,
    pricing: Cost)

  /**
   * Final assembly (lines 307-350): the head of the shortlist, priced with
   * the SKU of the first scored entry bearing its id.
   */
  function AssembleFinal(scored: seq<Scored>, shortlist: seq<Sfp>): (r: Option<FinalSelection>)
    ensures r.Some? ==> |shortlist| > 0 && r.value.sfp == shortlist[0]
    ensures r.Some? ==> r.value.justification == HighestMatchScore(r.value.matchScore, |shortlist|)
    ensures r.Some? ==> var e := FindById(scored, shortlist[0].id);
                        e.Some? && e.value.matchedSku == Some(r.value.sku) && e.value.score == r.value.matchScore
    ensures r.Some? ==> r.value.technical == Technical("Industrial Coating", QuantityOf(shortlist[0]),
                                                       "Standard ISO/ASTM", r.value.sku.sku.properties)
    ensures r.Some? ==> r.value.pricing == Price(r.value.sku.sku.costPerLiter, QuantityOf(shortlist[0]))
    ensures r.None? <==> |shortlist| == 0 || PriceOne(scored, shortlist[0]).None?
  {
    if |shortlist| == 0 then None
    else
      var selected := shortlist[0];
      match FindById(scored, selected.id)
      case Some(Scored(_, score, Some(m), _)) =>
        var qty := QuantityOf(selected);
        Some(FinalSelection(selected, m, score, HighestMatchScore(score, |shortlist|),
                            Technical("Industrial Coating", qty, "Standard ISO/ASTM", m.sku.properties),
                            Price(m.sku.costPerLiter, qty)))
      case _ => None
  }

  /** After a threshold step, a non-empty shortlist always yields a final selection. */
  lemma FinalSelectedIffShortlisted(passed: seq<Scored>, shortlist: seq<Sfp>)
    requires forall s :: s in passed ==> s.matchedSku.Some?
    requires forall x :: x in shortlist ==> x in Seqs.Map(passed, ScoredSfp)
    ensures AssembleFinal(passed, shortlist).Some? <==> |shortlist| > 0
  {
    if |shortlist| > 0 {
      HasEntry(passed, shortlist[0]);
    }
  }
}

=== FILE: seqs.dfy ===
/**
 * Order-preserving filtering (`Array.prototype.filter`) and the partition
 * facts every elimination stage relies on: what one side keeps and the
 * other side drops add up to the input, element for element.
 */
module Seqs {

  /** `[x]` when `c` holds and `[]` otherwise: an entry pushed under a condition. */
  function When<T(!new)>(c: bool, x: T): (r: seq<T>)
    ensures |r| <= 1
    ensures forall y :: y in r <==> c && y == x
  {
    if c then [x] else []
  }

  /** The elements of `s` that satisfy `p`, in order. */
  function Filter<T>(s: seq<T>, p: T -> bool): (r: seq<T>)
    ensures |r| <= |s|
    ensures forall x :: x in r ==> x in s && p(x)
  {
    if s == [] then []
    else (if p(s[0]) then [s[0]] else []) + Filter(s[1..], p)
  }

  /** The elements of `s` that fail `p`, in order. */
  function Reject<T>(s: seq<T>, p: T -> bool): (r: seq<T>)
    ensures |r| <= |s|
    ensures forall x :: x in r ==> x in s && !p(x)
  {
    if s == [] then []
    else (if p(s[0]) then [] else [s[0]]) + Reject(s[1..], p)
  }

  /** `a` is obtained from `b` by deleting elements (order is kept). */
  predicate IsSubsequence<T(==)>(a: seq<T>, b: seq<T>)
    decreases |b|
  {
    if a == [] then true
    else if b == [] then false
    else if a[0] == b[0] then IsSubsequence(a[1..], b[1..])
    else IsSubsequence(a, b[1..])
  }

  lemma {:induction false} FilterPartitionSize<T>(s: seq<T>, p: T -> bool)
    ensures |Filter(s, p)| + |Reject(s, p)| == |s|
  {
    if s != [] {
      FilterPartitionSize(s[1..], p);
    }
  }

  lemma {:induction false} FilterPartitionMultiset<T>(s: seq<T>, p: T -> bool)
    ensures multiset(Filter(s, p)) + multiset(Reject(s, p)) == multiset(s)
  {
    if s != [] {
      FilterPartitionMultiset(s[1..], p);
      var head := [s[0]];
      assert s == head + s[1..];
      assert multiset(s) == multiset(head) + multiset(s[1..]);
      if p(s[0]) {
        assert Filter(s, p) == head + Filter(s[1..], p);
        assert Reject(s, p) == Reject(s[1..], p);
        assert multiset(Filter(s, p)) == multiset(head) + multiset(Filter(s[1..], p));
      } else {
        assert Filter(s, p) == Filter(s[1..], p);
        assert Reject(s, p) == head + Reject(s[1..], p);
        assert multiset(Reject(s, p)) == multiset(head) + multiset(Reject(s[1..], p));
      }
    }
  }

  lemma {:induction false} SubsequenceDropHead<T>(a: seq<T>, b: seq<T>)
    requires |a| > 0 && IsSubsequence(a, b)
    ensures IsSubsequence(a[1..], b)
    decreases |b|, 0
  {
    if a[0] != b[0] {
      SubsequenceDropHead(a, b[1..]);
    }
    SubsequenceExtend(a[1..], b[1..], b[0]);
    assert [b[0]] + b[1..] == b;
  }

  lemma {:induction false} SubsequenceExtend<T>(a: seq<T>, b: seq<T>, x: T)
    requires IsSubsequence(a, b)
    ensures IsSubsequence(a, [x] + b)
    decreases |b|, 1
  {
    assert ([x] + b)[1..] == b;
    if a != [] && a[0] == x {
      SubsequenceDropHead(a, b);
    }
  }

  lemma {:induction false} FilterIsSubsequence<T>(s: seq<T>, p: T -> bool)
    ensures IsSubsequence(Filter(s, p), s)
  {
    if s != [] {
      FilterIsSubsequence(s[1..], p);
      var f := Filter(s, p);
      assert [s[0]] + s[1..] == s;
      if p(s[0]) {
        assert f == [s[0]] + Filter(s[1..], p);
        assert f[1..] == Filter(s[1..], p);
      } else {
        assert f == Filter(s[1..], p);
        SubsequenceExtend(f, s[1..], s[0]);
      }
    }
  }

  lemma {:induction false} RejectIsSubsequence<T>(s: seq<T>, p: T -> bool)
    ensures IsSubsequence(Reject(s, p), s)
  {
    if s != [] {
      RejectIsSubsequence(s[1..], p);
      var g := Reject(s, p);
      assert [s[0]] + s[1..] == s;
      if p(s[0]) {
        assert g == Reject(s[1..], p);
        SubsequenceExtend(g, s[1..], s[0]);
      } else {
        assert g == [s[0]] + Reject(s[1..], p);
        assert g[1..] == Reject(s[1..], p);
      }
    }
  }

  /**
   * The two sides of a filter form an order-preserving partition of the
   * input: sizes add up, multiplicities add up, and each side keeps the
   * input's relative order.
   */
  lemma OrderedPartition<T>(s: seq<T>, p: T -> bool)
    ensures |Filter(s, p)| + |Reject(s, p)| == |s|
    ensures multiset(Filter(s, p)) + multiset(Reject(s, p)) == multiset(s)
    ensures IsSubsequence(Filter(s, p), s) && IsSubsequence(Reject(s, p), s)
  {
    FilterPartitionSize(s, p);
    FilterPartitionMultiset(s, p);
    FilterIsSubsequence(s, p);
    RejectIsSubsequence(s, p);
  }

  /** Filtering a sequence whose every element passes leaves it unchanged. */
  lemma {:induction false} FilterAll<T>(s: seq<T>, p: T -> bool)
    requires forall i :: 0 <= i < |s| ==> p(s[i])
    ensures Filter(s, p) == s
    ensures Reject(s, p) == []
  {
    if s != [] {
      FilterAll(s[1..], p);
    }
  }

  /** Filtering a sequence whose every element fails leaves nothing. */
  lemma {:induction false} FilterNone<T>(s: seq<T>, p: T -> bool)
    requires forall i :: 0 <= i < |s| ==> !p(s[i])
    ensures Filter(s, p) == []
    ensures Reject(s, p) == s
  {
    if s != [] {
      FilterNone(s[1..], p);
      assert s == [s[0]] + s[1..];
    }
  }

  /** A prefix of a subsequence of `b` is a subsequence of `b`. */
  lemma {:induction false} SubsequencePrefix<T>(a: seq<T>, b: seq<T>, k: nat)
    requires k <= |a| && IsSubsequence(a, b)
    ensures IsSubsequence(a[..k], b)
    decreases |b|
  {
    if k > 0 {
      if a[0] == b[0] {
        SubsequencePrefix(a[1..], b[1..], k - 1);
        assert a[..k][1..] == a[1..][..k - 1];
      } else {
        SubsequencePrefix(a, b[1..], k);
      }
    }
  }

  lemma {:induction false} SubsequenceReflexive<T>(s: seq<T>)
    ensures IsSubsequence(s, s)
  {
    if s != [] {
      SubsequenceReflexive(s[1..]);
    }
  }

  /** How many elements of `s` satisfy `p` (a `forEach` that bumps a counter). */
  function Count<T>(s: seq<T>, p: T -> bool): (n: nat)
    ensures n <= |s|
    ensures n == 0 <==> forall i :: 0 <= i < |s| ==> !p(s[i])
  {
    if s == [] then 0
    else
      assert forall i :: 0 < i < |s| ==> s[i] == s[1..][i - 1];
      (if p(s[0]) then 1 else 0) + Count(s[1..], p)
  }

  /** Counting is filtering and taking the length. */
  lemma {:induction false} CountIsFilterSize<T>(s: seq<T>, p: T -> bool)
    ensures Count(s, p) == |Filter(s, p)|
  {
    if s != [] {
      CountIsFilterSize(s[1..], p);
    }
  }

  /** Two tests that agree on every element count the same. */
  lemma {:induction false} CountCongruent<T>(s: seq<T>, p: T -> bool, q: T -> bool)
    requires forall i :: 0 <= i < |s| ==> p(s[i]) == q(s[i])
    ensures Count(s, p) == Count(s, q)
  {
    if s != [] {
      assert forall i :: 0 < i < |s| ==> s[i] == s[1..][i - 1];
      CountCongruent(s[1..], p, q);
    }
  }

  /** `s.map(f)`. */
  function Map<A, B>(s: seq<A>, f: A -> B): (r: seq<B>)
    ensures |r| == |s|
    ensures forall i :: 0 <= i < |s| ==> r[i] == f(s[i])
  {
    seq(|s|, i requires 0 <= i < |s| => f(s[i]))
  }

  /** Mapping two permutations of each other gives two permutations of each other. */
  lemma {:induction false} MapMultiset<A, B>(a: seq<A>, b: seq<A>, f: A -> B)
    requires multiset(a) == multiset(b)
    ensures multiset(Map(a, f)) == multiset(Map(b, f))
    decreases |a|
  {
    if a != [] {
      var x := a[0];
      var k := IndexOf(b, x);
      var rest := b[..k] + b[k + 1..];
      RemoveAt(b, k);
      ConsMultiset(a);
      MultisetCancel(multiset(rest), multiset(a[1..]), x);
      MapMultiset(a[1..], rest, f);
      MapRemoveAt(b, k, f);
      ConsMultiset(Map(a, f));
      assert Map(a, f)[1..] == Map(a[1..], f);
    }
  }

  /** A position at which an element of `b` occurs. */
  lemma IndexOf<T>(b: seq<T>, x: T) returns (k: nat)
    requires x in multiset(b)
    ensures k < |b| && b[k] == x
  {
    k :| k < |b| && b[k] == x;
  }

  lemma ConsMultiset<T>(a: seq<T>)
    requires a != []
    ensures multiset(a) == multiset{a[0]} + multiset(a[1..])
  {
    assert a == [a[0]] + a[1..];
  }

  lemma MapConcat<A, B>(a: seq<A>, b: seq<A>, f: A -> B)
    ensures Map(a + b, f) == Map(a, f) + Map(b, f)
  {
    assert forall i :: 0 <= i < |a + b| ==> Map(a + b, f)[i] == (Map(a, f) + Map(b, f))[i];
  }

  lemma RemoveAt<T>(b: seq<T>, k: nat)
    requires k < |b|
    ensures multiset(b[..k] + b[k + 1..]) + multiset{b[k]} == multiset(b)
  {
    assert b == b[..k] + [b[k]] + b[k + 1..];
  }

  lemma MapRemoveAt<A, B>(b: seq<A>, k: nat, f: A -> B)
    requires k < |b|
    ensures multiset(Map(b[..k] + b[k + 1..], f)) + multiset{f(b[k])} == multiset(Map(b, f))
  {
    assert Map(b, f) == Map(b[..k], f) + [f(b[k])] + Map(b[k + 1..], f);
    assert Map(b[..k] + b[k + 1..], f) == Map(b[..k], f) + Map(b[k + 1..], f);
  }

  lemma MultisetCancel<T>(m: multiset<T>, n: multiset<T>, x: T)
    requires m + multiset{x} == n + multiset{x}
    ensures m == n
  {
    assert forall y :: m[y] == (m + multiset{x})[y] - multiset{x}[y];
    assert forall y :: n[y] == (n + multiset{x})[y] - multiset{x}[y];
  }

  /** Mapping keeps the order of a subsequence. */
  lemma {:induction false} MapSubsequence<A, B>(a: seq<A>, b: seq<A>, f: A -> B)
    requires IsSubsequence(a, b)
    ensures IsSubsequence(Map(a, f), Map(b, f))
    decreases |b|
  {
    if a != [] {
      assert Map(b, f)[1..] == Map(b[1..], f);
      if a[0] == b[0] {
        assert Map(a, f)[1..] == Map(a[1..], f);
        MapSubsequence(a[1..], b[1..], f);
      } else {
        MapSubsequence(a, b[1..], f);
        SubsequenceExtend(Map(a, f), Map(b[1..], f), f(b[0]));
        assert [f(b[0])] + Map(b[1..], f) == Map(b, f);
      }
    }
  }

  /** An element is kept by `Filter` iff it occurs and passes; dropped by `Reject` iff it occurs and fails. */
  lemma {:induction false} FilterMembers<T>(s: seq<T>, p: T -> bool)
    ensures forall x :: x in Filter(s, p) <==> x in s && p(x)
    ensures forall x :: x in Reject(s, p) <==> x in s && !p(x)
  {
    if s != [] {
      FilterMembers(s[1..], p);
      assert s == [s[0]] + s[1..];
    }
  }

  /** Every element of a subsequence occurs in the whole. */
  lemma {:induction false} SubsequenceMembers<T>(a: seq<T>, b: seq<T>)
    requires IsSubsequence(a, b)
    ensures forall x :: x in a ==> x in b
    decreases |b|
  {
    if a != [] {
      if a[0] == b[0] {
        SubsequenceMembers(a[1..], b[1..]);
        assert a == [a[0]] + a[1..];
      } else {
        SubsequenceMembers(a, b[1..]);
      }
    }
  }
}

=== FILE: sorting.dfy ===
/**
 * `results.sort((a, b) => key(b) - key(a))` under the stable
 * `Array.prototype.sort` of ES2019: a descending sort by an integer key in
 * which entries with equal keys keep their input order.
 *
 * `SortDesc` is an insertion sort. Its specification is independent of it:
 * the output is ordered by non-increasing key (`SortedDesc`) and, for every
 * key value, lists the entries carrying that key in input order (`Stable`).
 * `StableSortUnique` shows that the specification determines the output,
 * so any stable sort produces exactly `SortDesc`.
 */
module Sorting {

  predicate SortedDesc<T>(s: seq<T>, key: T -> int) {
    forall i, j :: 0 <= i < j < |s| ==> key(s[i]) >= key(s[j])
  }

  /** The entries of `s` whose key is `k`, in order. */
  function WithKey<T>(s: seq<T>, key: T -> int, k: int): seq<T> {
    if s == [] then []
    else (if key(s[0]) == k then [s[0]] else []) + WithKey(s[1..], key, k)
  }

  /** `output` keeps, for every key value, the input order of the entries carrying it. */
  ghost predicate Stable<T>(input: seq<T>, output: seq<T>, key: T -> int) {
    forall k :: WithKey(output, key, k) == WithKey(input, key, k)
  }

  /** Puts `x` after every entry with a strictly greater key and before the rest. */
  function Insert<T>(x: T, s: seq<T>, key: T -> int): (r: seq<T>)
    ensures |r| == |s| + 1
    ensures multiset(r) == multiset(s) + multiset{x}
  {
    if s == [] || key(s[0]) <= key(x) then [x] + s
    else
      assert s == [s[0]] + s[1..];
      [s[0]] + Insert(x, s[1..], key)
  }

  function SortDesc<T>(s: seq<T>, key: T -> int): (r: seq<T>)
    ensures |r| == |s|
    ensures multiset(r) == multiset(s)
    ensures SortedDesc(r, key)
  {
    if s == [] then []
    else
      var t := SortDesc(s[1..], key);
      InsertSorted(s[0], t, key);
      assert s == [s[0]] + s[1..];
      Insert(s[0], t, key)
  }

  lemma {:induction false} InsertSorted<T>(x: T, s: seq<T>, key: T -> int)
    requires SortedDesc(s, key)
    ensures SortedDesc(Insert(x, s, key), key)
  {
    if s != [] && key(s[0]) > key(x) {
      InsertSorted(x, s[1..], key);
      var r := Insert(x, s, key);
      var t := Insert(x, s[1..], key);
      assert r == [s[0]] + t;
      forall j | 0 < j < |r|
        ensures key(r[0]) >= key(r[j])
      {
        assert r[j] in multiset(t);
        assert r[j] in multiset(s[1..]) + multiset{x};
        if r[j] != x {
          assert r[j] in s[1..];
        }
      }
    }
  }

  /** Inserting `x` adds it at the head of its own key's entries and nowhere else. */
  lemma {:induction false} WithKeyInsert<T>(x: T, s: seq<T>, key: T -> int, k: int)
    ensures WithKey(Insert(x, s, key), key, k)
         == (if key(x) == k then [x] else []) + WithKey(s, key, k)
  {
    if s != [] && key(s[0]) > key(x) {
      var t := Insert(x, s[1..], key);
      assert Insert(x, s, key) == [s[0]] + t;
      WithKeyInsert(x, s[1..], key, k);
      WithKeyPassOver(x, s[0], t, s[1..], key, k);
      assert [s[0]] + s[1..] == s;
    } else {
      assert Insert(x, s, key) == [x] + s;
      WithKeyCons(x, s, key, k);
    }
  }

  /** Placing `x` behind a head `y` of greater key adds it to `k`'s entries exactly where it did before. */
  lemma WithKeyPassOver<T>(x: T, y: T, t: seq<T>, rest: seq<T>, key: T -> int, k: int)
    requires key(y) > key(x)
    requires WithKey(t, key, k) == (if key(x) == k then [x] else []) + WithKey(rest, key, k)
    ensures WithKey([y] + t, key, k) == (if key(x) == k then [x] else []) + WithKey([y] + rest, key, k)
  {
    WithKeyCons(y, t, key, k);
    WithKeyCons(y, rest, key, k);
    if key(x) == k {
      assert key(y) != k;
    }
  }

  lemma WithKeyCons<T>(y: T, rest: seq<T>, key: T -> int, k: int)
    ensures WithKey([y] + rest, key, k) == (if key(y) == k then [y] else []) + WithKey(rest, key, k)
  {
    assert ([y] + rest)[1..] == rest;
  }

  /** The insertion sort is stable. */
  lemma {:induction false} SortDescStable<T>(s: seq<T>, key: T -> int)
    ensures Stable(s, SortDesc(s, key), key)
  {
    if s != [] {
      SortDescStable(s[1..], key);
      forall k
        ensures WithKey(SortDesc(s, key), key, k) == WithKey(s, key, k)
      {
        WithKeyInsert(s[0], SortDesc(s[1..], key), key, k);
      }
    }
  }

  lemma {:induction false} WithKeyMembers<T>(s: seq<T>, key: T -> int, k: int)
    ensures forall x :: x in WithKey(s, key, k) <==> x in s && key(x) == k
  {
    if s != [] {
      WithKeyMembers(s[1..], key, k);
      assert s == [s[0]] + s[1..];
    }
  }

  /** Two key-sorted sequences that agree on every key's entries are equal. */
  lemma {:induction false} SortedAgreeingEqual<T>(a: seq<T>, b: seq<T>, key: T -> int)
    requires SortedDesc(a, key) && SortedDesc(b, key)
    requires forall k :: WithKey(a, key, k) == WithKey(b, key, k)
    ensures a == b
    decreases |a|
  {
    if a == [] || b == [] {
      if a != [] {
        WithKeyMembers(a, key, key(a[0]));
        assert false;
      }
      if b != [] {
        WithKeyMembers(b, key, key(b[0]));
        assert false;
      }
    } else {
      SortedHeadsAgree(a, b, key);
      TailsAgree(a, b, key);
      SortedAgreeingEqual(a[1..], b[1..], key);
      assert a == [a[0]] + a[1..];
      assert b == [b[0]] + b[1..];
    }
  }

  /** Two key-sorted sequences that agree on every key's entries start alike. */
  lemma SortedHeadsAgree<T>(a: seq<T>, b: seq<T>, key: T -> int)
    requires a != [] && b != []
    requires SortedDesc(a, key) && SortedDesc(b, key)
    requires forall k :: WithKey(a, key, k) == WithKey(b, key, k)
    ensures a[0] == b[0]
  {
    var ka, kb := key(a[0]), key(b[0]);
    HeadKeyBound(a, b, key);
    HeadKeyBound(b, a, key);
    assert ka == kb;
    WithKeyHead(a, key);
    WithKeyHead(b, key);
    assert WithKey(a, key, ka) == WithKey(b, key, ka);
  }

  /** The head of `a` occurs in `b` under the same key, so `b`'s head key is at least as large. */
  lemma HeadKeyBound<T>(a: seq<T>, b: seq<T>, key: T -> int)
    requires a != [] && b != [] && SortedDesc(b, key)
    requires WithKey(a, key, key(a[0])) == WithKey(b, key, key(a[0]))
    ensures key(b[0]) >= key(a[0])
  {
    WithKeyMembers(a, key, key(a[0]));
    WithKeyMembers(b, key, key(a[0]));
    assert a[0] in b;
    var j :| 0 <= j < |b| && b[j] == a[0];
    if j > 0 {
      assert key(b[0]) >= key(b[j]);
    }
  }

  lemma WithKeyHead<T>(s: seq<T>, key: T -> int)
    requires s != []
    ensures WithKey(s, key, key(s[0]))[0] == s[0]
  {
  }

  /** Sequences with the same head that agree on every key's entries have tails that do. */
  lemma TailsAgree<T>(a: seq<T>, b: seq<T>, key: T -> int)
    requires a != [] && b != [] && a[0] == b[0]
    requires forall k :: WithKey(a, key, k) == WithKey(b, key, k)
    ensures forall k :: WithKey(a[1..], key, k) == WithKey(b[1..], key, k)
  {
    forall k
      ensures WithKey(a[1..], key, k) == WithKey(b[1..], key, k)
    {
      WithKeyCons(a[0], a[1..], key, k);
      WithKeyCons(b[0], b[1..], key, k);
      assert [a[0]] + a[1..] == a;
      assert [b[0]] + b[1..] == b;
      var h := if key(a[0]) == k then [a[0]] else [];
      assert h + WithKey(a[1..], key, k) == h + WithKey(b[1..], key, k);
      assert WithKey(a[1..], key, k) == (h + WithKey(a[1..], key, k))[|h|..];
      assert WithKey(b[1..], key, k) == (h + WithKey(b[1..], key, k))[|h|..];
    }
  }

  /**
   * The specification determines the sort: any sequence that is ordered by
   * non-increasing key and stable with respect to `s` is `SortDesc(s)`.
   */
  lemma StableSortUnique<T>(s: seq<T>, r: seq<T>, key: T -> int)
    requires SortedDesc(r, key) && Stable(s, r, key)
    ensures r == SortDesc(s, key)
  {
    SortDescStable(s, key);
    SortedAgreeingEqual(r, SortDesc(s, key), key);
  }

  /**
   * `s.sort((a, b) => key(b) - key(a))`: a stable descending permutation
   * of `s`, holding exactly the entries of `s`.
   */
  function Rank<T(!new)>(s: seq<T>, key: T -> int): (r: seq<T>)
    ensures |r| == |s| && multiset(r) == multiset(s)
    ensures SortedDesc(r, key) && Stable(s, r, key)
    ensures forall x :: x in r <==> x in s
  {
    SortDescStable(s, key);
    var r := SortDesc(s, key);
    assert forall x :: x in r <==> x in multiset(s);
    r
  }
}

=== FILE: workflow.dfy ===
/**
 * The run/reset controller of src/context/WorkflowContext.js
 * (`executeWorkflow`, `simulateMultiSFPSteps`, `resetWorkflow`) as a
 * record-based state machine.
 *
 * A run is modelled as the trace of controller states after the start and
 * after each step body: each awaited step, and the synchronous scoring
 * block (lines 162-230), whose state still carries STEP_3_SCORING because
 * the next phase write (line 233) comes after it. The timers only pace the
 * demo. A stage that throws ends the trace with the `catch` block's state.
 */
module Workflow {
  import opened Js
  import opened Domain
  import Seqs
  import Sorting
  import Pipeline

  /** `WORKFLOW_PHASES`, in the order a run visits them. */
  datatype Phase =
    | NotStarted
    | LoadingSfps
    | Step1DeadlineFilter
    | Step2SpecFilter
    | Step3Scoring
    | FinalShortlist
    | Completed

  function PhaseIndex(p: Phase): nat {
    match p
    case NotStarted => 0
    case LoadingSfps => 1
    case Step1DeadlineFilter => 2
    case Step2SpecFilter => 3
    case Step3Scoring => 4
    case FinalShortlist => 5
    case Completed => 6
  }

  /** The log entry types. */
  datatype Severity = Info | Success | Warning | Error

  /** The log messages, with the numbers they interpolate. */
  datatype Event =
    | NoSfpsAvailable
    | WorkflowStarted(count: int)
    | TriggerActivated
    | Loaded(count: int)
    | ValidatingDeadlines
    | DeadlineSummary(passed: int, eliminated: int)
    | FilteringSpecs
    | SpecSummary(passed: int, eliminated: int)
    | PreparingContext
    | AnalyzingRemaining(count: int)
    | ContextPrepared
    | ScoringStarted
    | ScoringSummary(top: int, lowest: int)
    | ScoreFilterSummary(passed: int, eliminated: int)
    | CreatingShortlist
    | ShortlistSummary(count: int)
    | PricingStarted
    | PricingSummary(count: int)
    | WorkflowCompleted
    | FinalSelected(title: Text, productName: string, score: int)
    | WorkflowError

  datatype LogEntry = LogEntry(event: Event, severity: Severity)

  /** The controller state the run and reset operations read and write. */
  datatype Controller = Controller(
    candidates: seq<Sfp>,
    phase: Phase,
    executing: bool,
    logs: seq<LogEntry>,
    stepStates: seq<Pipeline.StepState>,
    finalSelection: Option<Pipeline.FinalSelection>,
    selected: Option<Sfp>)

  function Last<T>(s: seq<T>): T
    requires |s| > 0
  {
    s[|s| - 1]
  }

  // ------------------------------------------------------------ reset

  /** `resetWorkflow` (lines 386-397): everything but the candidates back to its initial value. */
  function ResetWorkflow(c: Controller): (r: Controller)
    ensures r.candidates == c.candidates
    ensures r.phase == NotStarted && !r.executing
    ensures r.logs == [] && r.stepStates == []
    ensures r.finalSelection.None? && r.selected.None?
  {
    Controller(c.candidates, NotStarted, false, [], [], None, None)
  }

  // -------------------------------------------------------------- run

  function Log(c: Controller, entries: seq<LogEntry>): Controller {
    c.(logs := c.logs + entries)
  }

  /**
   * Lines 66-76: mark the run in flight at LOADING_SFPS, clear the previous
   * run's selections, step states and log, and log the start with the
   * number of candidates.
   */
  function Start(c: Controller): (r: Controller)
    ensures r.candidates == c.candidates && r.executing && r.phase == LoadingSfps
    ensures r.logs == [LogEntry(WorkflowStarted(|c.candidates|), Success)]
    ensures r.stepStates == [] && r.finalSelection.None? && r.selected.None?
  {
    c.(selected := None, finalSelection := None, executing := true, phase := LoadingSfps,
       logs := [LogEntry(WorkflowStarted(|c.candidates|), Success)], stepStates := [])
  }

  /** The `catch` block (lines 81-85). */
  function Catch(c: Controller): (r: Controller)
    ensures !r.executing && r.phase == NotStarted
    ensures r.logs == c.logs + [LogEntry(WorkflowError, Error)]
    ensures r.stepStates == c.stepStates && r.finalSelection == c.finalSelection
  {
    c.(logs := c.logs + [LogEntry(WorkflowError, Error)], executing := false, phase := NotStarted)
  }

  /** `scoredSFPs[0]?.score || 0` and `scoredSFPs[scoredSFPs.length - 1]?.score || 0`. */
  function TopScore(ranked: seq<Pipeline.Scored>): int {
    if ranked == [] then 0 else ranked[0].score
  }

  function LowestScore(ranked: seq<Pipeline.Scored>): int {
    if ranked == [] then 0 else ranked[|ranked| - 1].score
  }

  /** One step's effect: move to `phase`, append its log entries and step states. */
  function Record(c: Controller, phase: Phase, entries: seq<LogEntry>, states: seq<Pipeline.StepState>)
    : (r: Controller)
    ensures r.candidates == c.candidates && r.executing == c.executing
    ensures r.finalSelection == c.finalSelection && r.selected == c.selected
    ensures r.phase == phase && r.logs == c.logs + entries && r.stepStates == c.stepStates + states
  {
    c.(phase := phase, logs := c.logs + entries, stepStates := c.stepStates + states)
  }

  /** Step 7 (lines 302-356): record the final selection, if any, and stop executing. */
  function Complete(c: Controller, fin: Option<Pipeline.FinalSelection>): (r: Controller)
    ensures r.candidates == c.candidates && !r.executing && r.phase == Completed
    ensures Extends(c.logs, r.logs) && r.stepStates == c.stepStates
    ensures r.finalSelection == fin && (r.selected.Some? <==> fin.Some?)
    ensures fin.Some? ==> r.selected == Some(fin.value.sfp)
  {
    var selectedLog := if fin.Some? then
                         [LogEntry(FinalSelected(fin.value.sfp.title, fin.value.sku.sku.productName,
                                                 fin.value.matchScore), Success)]
                       else [];
    var r := c.(phase := Completed, logs := c.logs + ([LogEntry(WorkflowCompleted, Success)] + selectedLog),
                finalSelection := fin, selected := if fin.Some? then Some(fin.value.sfp) else None,
                executing := false);
    assert r.logs[..|c.logs|] == c.logs;
    r
  }

  // ---------------------------------------------------------------- stages

  /**
   * What the stages of one run produced, up to the first that threw: the
   * spec filter, the scoring step, or none of them.
   */
  datatype Stages =
    | SpecThrew(load: Pipeline.StepState, deadline: Pipeline.StepState)
    | ScoringThrew(load: Pipeline.StepState, deadline: Pipeline.StepState, spec: Pipeline.StepState)
    | Finished(load: Pipeline.StepState, deadline: Pipeline.StepState, spec: Pipeline.StepState,
               scoring: Pipeline.StepState, top: int, lowest: int, shortlist: Pipeline.StepState,
               priced: nat, final: Option<Pipeline.FinalSelection>)

  /**
   * The stages of `simulateMultiSFPSteps` (lines 88-357) run on the
   * candidates `all`: the first two always run, the spec filter and the
   * scoring step stop the run when they throw, and each stage that ran
   * partitions what the one before left active.
   */
  function RunStages(catalog: seq<Sku>, now: int, all: seq<Sfp>): (r: Stages)
    ensures r.load.active == all && r.deadline == Pipeline.DeadlineStage(now, all)
    ensures r.SpecThrew? <==> Pipeline.SpecStage(r.deadline.active).Thrown?
    ensures r.ScoringThrew? <==>
              Pipeline.SpecStage(r.deadline.active).Ok?
              && Pipeline.ScoringStage(catalog, Pipeline.SpecStage(r.deadline.active).value.active).Thrown?
    ensures !r.SpecThrew? ==> r.spec == Pipeline.SpecStage(r.deadline.active).value
    ensures r.Finished? ==> && r.scoring == Pipeline.ScoringStage(catalog, r.spec.active).value
                            && r.scoring.scoredData.Some?
                            && r.shortlist == Pipeline.ShortlistStage(r.scoring.active)
    ensures r.Finished? ==> var passed := r.scoring.scoredData.value;
                            && r.priced == |Pipeline.PricingStage(passed, r.shortlist.active)|
                            && r.final == Pipeline.AssembleFinal(passed, r.shortlist.active)
    ensures Chained(all, r)
  {
    var load := Pipeline.InitialLoad(all);
    var d := Pipeline.DeadlineStage(now, all);
    match Pipeline.SpecStage(d.active)
    case Thrown => SpecThrew(load, d)
    case Ok(sp) =>
      match Pipeline.ScoringStage(catalog, sp.active)
      case Thrown => ScoringThrew(load, d, sp)
      case Ok(sc) =>
        var ranked := Sorting.Rank(Pipeline.ScoreAll(catalog, sp.active).value, Pipeline.ScoredScore);
        var passed := if sc.scoredData.Some? then sc.scoredData.value else [];
        var sh := Pipeline.ShortlistStage(sc.active);
        Finished(load, d, sp, sc, TopScore(ranked), LowestScore(ranked), sh,
                 |Pipeline.PricingStage(passed, sh.active)|, Pipeline.AssembleFinal(passed, sh.active))
  }

  /** Each stage that ran partitions the SFPs left active by the one before (the candidates for the first). */
  predicate Chained(all: seq<Sfp>, st: Stages) {
    && Pipeline.PartitionOf(all, st.load)
    && Pipeline.PartitionOf(st.load.active, st.deadline)
    && (!st.SpecThrew? ==> Pipeline.PartitionOf(st.deadline.active, st.spec))
    && (st.Finished? ==>
          && Pipeline.PartitionOf(st.spec.active, st.scoring)
          && Pipeline.PartitionOf(st.scoring.active, st.shortlist))
  }

  /**
   * A finished run selects an SFP exactly when some SFP passed the score
   * threshold, and then it selects the first shortlisted one.
   */
  predicate SelectsFirst(st: Stages) {
    st.Finished? ==>
      && (st.final.Some? <==> |st.scoring.active| > 0)
      && (st.final.Some? ==> |st.shortlist.active| > 0 && st.final.value.sfp == st.shortlist.active[0])
  }

  lemma RunStagesSelectFirst(catalog: seq<Sku>, now: int, all: seq<Sfp>)
    ensures SelectsFirst(RunStages(catalog, now, all))
  {
    var st := RunStages(catalog, now, all);
    if st.Finished? {
      var passed := st.scoring.scoredData.value;
      var sh := st.shortlist;
      forall x | x in sh.active
        ensures x in Seqs.Map(passed, Pipeline.ScoredSfp)
      {
        assert x in st.scoring.active[..|sh.active|];
      }
      Pipeline.FinalSelectedIffShortlisted(passed, sh.active);
    }
  }

  // ----------------------------------------------------------------- trace

  /** The snapshots before the spec filter: triggered, deadline-filtered, spec filter started. */
  function Early(s: Controller, st: Stages): (r: seq<Controller>)
    ensures |r| == 3
  {
    var d := st.deadline;
    var c1 := Record(s, s.phase, [LogEntry(TriggerActivated, Info), LogEntry(Loaded(|s.candidates|), Info)],
                     [st.load]);
    var c2 := Record(c1, Step1DeadlineFilter,
                     [LogEntry(ValidatingDeadlines, Info),
                      LogEntry(DeadlineSummary(|d.active|, |d.eliminated|),
                               if |d.eliminated| > 0 then Warning else Success)],
                     [d]);
    var c3 := Record(c2, Step2SpecFilter, [LogEntry(FilteringSpecs, Info)], []);
    [c1, c2, c3]
  }

  /** The spec filter's summary is logged and its state recorded. */
  function SpecRecorded(c3: Controller, st: Stages): Controller
    requires !st.SpecThrew?
  {
    var sp := st.spec;
    Record(c3, Step2SpecFilter, [LogEntry(SpecSummary(|sp.active|, |sp.eliminated|), Success)], [sp])
  }

  /** The context step (lines 144-158) only logs. */
  function ContextLogged(s3: Controller, st: Stages): Controller
    requires !st.SpecThrew?
  {
    Record(s3, Step2SpecFilter,
           [LogEntry(PreparingContext, Info), LogEntry(AnalyzingRemaining(|st.spec.active|), Info),
            LogEntry(ContextPrepared, Success)], [])
  }

  /** The scoring step starts. */
  function ScoringBegun(s4: Controller): Controller {
    Record(s4, Step3Scoring, [LogEntry(ScoringStarted, Info)], [])
  }

  /**
   * From the spec filter's result on: the spec summary, the context step,
   * then the scoring step, which either throws into the `catch` state or
   * leads on to the shortlist.
   */
  function Middle(c3: Controller, st: Stages): (r: seq<Controller>)
    requires !st.SpecThrew?
  {
    var s3 := SpecRecorded(c3, st);
    var s4 := ContextLogged(s3, st);
    var s5pre := ScoringBegun(s4);
    if st.ScoringThrew? then [s3, s4, Catch(s5pre)]
    else [s3] + ([s4] + Finish(s5pre, st))
  }

  /** The scoring summary, the shortlist, pricing and the final selection. */
  function Finish(s5pre: Controller, st: Stages): (r: seq<Controller>)
    requires st.Finished?
  {
    var sc := st.scoring;
    var s5 := Record(s5pre, Step3Scoring,
                     [LogEntry(ScoringSummary(st.top, st.lowest), Info),
                      LogEntry(ScoreFilterSummary(|sc.active|, |sc.eliminated|), Success)], [sc]);
    var s6 := Record(s5, FinalShortlist,
                     [LogEntry(CreatingShortlist, Info), LogEntry(ShortlistSummary(|st.shortlist.active|), Success)],
                     [st.shortlist]);
    var s7 := Record(s6, FinalShortlist,
                     [LogEntry(PricingStarted, Info), LogEntry(PricingSummary(st.priced), Success)], []);
    [s5, s6, s7, Complete(s7, st.final)]
  }

  /**
   * The state after each step body of a run from the started state `s`:
   * three states when the spec filter throws, five when scoring throws,
   * eight otherwise; the last is idle, Completed exactly when every stage
   * finished and NOT_STARTED after a caught error.
   */
  function TraceOf(s: Controller, st: Stages): (r: seq<Controller>)
    ensures |r| == (if st.SpecThrew? then 3 else if st.ScoringThrew? then 5 else 8)
    ensures !Last(r).executing
    ensures Last(r).phase == (if st.Finished? then Completed else NotStarted)
  {
    var e := Early(s, st);
    if st.SpecThrew? then [e[0], e[1], Catch(e[2])]
    else [e[0]] + ([e[1]] + Middle(e[2], st))
  }

  /**
   * The snapshots of one call of `executeWorkflow` (lines 56-86): nothing
   * while a run is in flight, a single warning with no candidates,
   * otherwise the start state followed by the steps.
   */
  function RunTrace(c: Controller, catalog: seq<Sku>, now: int): (t: seq<Controller>)
    ensures |t| > 0
  {
    if c.executing then [c]
    else if |c.candidates| == 0 then [Log(c, [LogEntry(NoSfpsAvailable, Warning)])]
    else
      var s := Start(c);
      [s] + TraceOf(s, RunStages(catalog, now, c.candidates))
  }

  /** A run performing a real start: not already executing, with candidates. */
  predicate Starts(c: Controller) {
    !c.executing && |c.candidates| > 0
  }

  /**
   * `executeWorkflow`, `now` standing for `new Date()` and `catalog` for
   * the catalogue the scorer reads (the application's is
   * `AsianCatalog.Items()`): a call while a run is in flight changes nothing, a call
   * without candidates only logs a warning, and no call changes the
   * candidates.
   */
  function ExecuteWorkflow(c: Controller, catalog: seq<Sku>, now: int): (r: Controller)
    ensures c.executing ==> r == c
    ensures !c.executing && |c.candidates| == 0 ==>
              r == c.(logs := c.logs + [LogEntry(NoSfpsAvailable, Warning)])
    ensures r.candidates == c.candidates
  {
    RunKeepsCandidates(c, catalog, now);
    Last(RunTrace(c, catalog, now))
  }

  // ----------------------------------------------------------- trace facts

  /** `b` extends `a` (logs are only ever appended to within a run). */
  predicate Extends(a: seq<LogEntry>, b: seq<LogEntry>) {
    |a| <= |b| && b[..|a|] == a
  }

  lemma {:induction false} ExtendsTransitive(a: seq<LogEntry>, b: seq<LogEntry>, c: seq<LogEntry>)
    requires Extends(a, b) && Extends(b, c)
    ensures Extends(a, c)
  {
    assert c[..|a|] == c[..|b|][..|a|];
  }

  /** The phase stays or moves one step forward. */
  predicate PhaseStep(a: Phase, b: Phase) {
    PhaseIndex(b) == PhaseIndex(a) || PhaseIndex(b) == PhaseIndex(a) + 1
  }

  /** The first step state partitions the candidates, each later one the active SFPs before it. */
  ghost predicate ChainPartition(candidates: seq<Sfp>, states: seq<Pipeline.StepState>)
    decreases |states|
  {
    || states == []
    || (&& ChainPartition(candidates, states[..|states| - 1])
        && Pipeline.PartitionOf(if |states| == 1 then candidates else states[|states| - 2].active, Last(states)))
  }

  /** Appending a state that partitions the last active list keeps the chain. */
  lemma ChainExtend(candidates: seq<Sfp>, states: seq<Pipeline.StepState>, st: Pipeline.StepState)
    requires ChainPartition(candidates, states)
    requires Pipeline.PartitionOf(if states == [] then candidates else Last(states).active, st)
    ensures ChainPartition(candidates, states + [st])
  {
    assert (states + [st])[..|states|] == states;
  }

  /**
   * One snapshot to the next within a run: the run was still executing,
   * the candidates stay, the logs are appended to, the phase advances at
   * most one step (or a caught error drops it to NotStarted), and the
   * step states still form a partition chain.
   */
  ghost predicate Advance(a: Controller, b: Controller) {
    && a.executing
    && b.candidates == a.candidates
    && Extends(a.logs, b.logs)
    && (PhaseStep(a.phase, b.phase) || (b.phase == NotStarted && !b.executing))
    && ChainPartition(b.candidates, b.stepStates)
  }

  /** Each snapshot of `t` advances the one before it. */
  ghost predicate Advancing(t: seq<Controller>)
    decreases |t|
  {
    |t| <= 1 || (Advance(t[0], t[1]) && Advancing(t[1..]))
  }

  lemma AdvancingCons(a: Controller, t: seq<Controller>)
    requires |t| > 0 && Advance(a, t[0]) && Advancing(t)
    ensures Advancing([a] + t)
  {
    assert ([a] + t)[1..] == t;
  }

  /** Over a whole run the logs grow by appending and the candidates stay. */
  lemma {:induction false} AdvancingLogs(t: seq<Controller>)
    requires |t| > 0 && Advancing(t)
    ensures Extends(t[0].logs, Last(t).logs) && Last(t).candidates == t[0].candidates
    decreases |t|
  {
    if |t| > 1 {
      AdvancingLogs(t[1..]);
      ExtendsTransitive(t[0].logs, t[1].logs, Last(t).logs);
    }
  }

  /** Every snapshot of a run but the last is still executing. */
  lemma {:induction false} AdvancingExecuting(t: seq<Controller>, i: int)
    requires Advancing(t) && 0 <= i < |t| - 1
    ensures t[i].executing
    decreases i
  {
    if i > 0 {
      AdvancingExecuting(t[1..], i - 1);
      assert t[1..][i - 1] == t[i];
    }
  }

  /** A step that only logs (and may move the phase) advances the run. */
  lemma LogAdvances(c: Controller, phase: Phase, entries: seq<LogEntry>)
    requires c.executing && PhaseStep(c.phase, phase) && ChainPartition(c.candidates, c.stepStates)
    ensures Advance(c, Record(c, phase, entries, []))
  {
    var r := Record(c, phase, entries, []);
    assert r.logs[..|c.logs|] == c.logs;
    assert r.stepStates == c.stepStates;
  }

  /** A step that records a state partitioning the last active list advances the run. */
  lemma StageAdvances(c: Controller, phase: Phase, entries: seq<LogEntry>, st: Pipeline.StepState)
    requires c.executing && PhaseStep(c.phase, phase) && ChainPartition(c.candidates, c.stepStates)
    requires Pipeline.PartitionOf(if c.stepStates == [] then c.candidates else Last(c.stepStates).active, st)
    ensures Advance(c, Record(c, phase, entries, [st]))
  {
    var r := Record(c, phase, entries, [st]);
    assert r.logs[..|c.logs|] == c.logs;
    ChainExtend(c.candidates, c.stepStates, st);
  }

  /** A step that throws leaves the previous snapshot for the `catch` state. */
  lemma CatchAdvances(prev: Controller, c: Controller)
    requires Advance(prev, c)
    ensures Advance(prev, Catch(c))
  {
    assert Catch(c).logs[..|c.logs|] == c.logs;
    ExtendsTransitive(prev.logs, c.logs, Catch(c).logs);
  }

  /** Two steps in a row advance like one, as long as the phase moves at most one. */
  lemma AdvanceCompose(a: Controller, b: Controller, c: Controller)
    requires Advance(a, b) && Advance(b, c) && PhaseStep(a.phase, c.phase)
    ensures Advance(a, c)
  {
    ExtendsTransitive(a.logs, b.logs, c.logs);
  }

  lemma CompleteAdvances(c: Controller, fin: Option<Pipeline.FinalSelection>)
    requires c.executing && c.phase == FinalShortlist && ChainPartition(c.candidates, c.stepStates)
    ensures Advance(c, Complete(c, fin))
  {
  }

  /** How a run ends, and that each step advances the one before. */
  ghost predicate Shaped(t: seq<Controller>) {
    && |t| > 0
    && Advancing(t)
    && !Last(t).executing
    && (Last(t).phase == Completed || Last(t).phase == NotStarted)
    && (Last(t).finalSelection.Some? ==> Last(t).phase == Completed)
  }

  lemma EarlyAdvances(s: Controller, st: Stages)
    requires s == Start(s) && Chained(s.candidates, st)
    ensures var e := Early(s, st);
            && Advance(s, e[0]) && Advance(e[0], e[1]) && Advance(e[1], e[2])
            && e[2].phase == Step2SpecFilter && e[2].executing && e[2].finalSelection.None?
            && e[2].stepStates == [st.load, st.deadline]
  {
    var d := st.deadline;
    var e1 := [LogEntry(TriggerActivated, Info), LogEntry(Loaded(|s.candidates|), Info)];
    StageAdvances(s, s.phase, e1, st.load);
    var c1 := Record(s, s.phase, e1, [st.load]);
    var e2 := [LogEntry(ValidatingDeadlines, Info),
               LogEntry(DeadlineSummary(|d.active|, |d.eliminated|),
                        if |d.eliminated| > 0 then Warning else Success)];
    StageAdvances(c1, Step1DeadlineFilter, e2, d);
    var c2 := Record(c1, Step1DeadlineFilter, e2, [d]);
    LogAdvances(c2, Step2SpecFilter, [LogEntry(FilteringSpecs, Info)]);
  }

  /** From the scoring result on, the run advances and ends Completed. */
  lemma FinishAdvances(prev: Controller, s5pre: Controller, st: Stages)
    requires st.Finished?
    requires Pipeline.PartitionOf(st.spec.active, st.scoring) && Pipeline.PartitionOf(st.scoring.active, st.shortlist)
    requires Advance(prev, s5pre) && prev.phase == Step2SpecFilter
    requires s5pre.executing && s5pre.phase == Step3Scoring
    requires ChainPartition(s5pre.candidates, s5pre.stepStates) && |s5pre.stepStates| > 0
    requires Last(s5pre.stepStates) == st.spec
    ensures var r := Finish(s5pre, st);
            && Advancing([prev] + r)
            && !Last(r).executing && Last(r).phase == Completed
  {
    var sc := st.scoring;
    var e5 := [LogEntry(ScoringSummary(st.top, st.lowest), Info),
               LogEntry(ScoreFilterSummary(|sc.active|, |sc.eliminated|), Success)];
    StageAdvances(s5pre, Step3Scoring, e5, sc);
    var s5 := Record(s5pre, Step3Scoring, e5, [sc]);
    AdvanceCompose(prev, s5pre, s5);
    var e6 := [LogEntry(CreatingShortlist, Info), LogEntry(ShortlistSummary(|st.shortlist.active|), Success)];
    StageAdvances(s5, FinalShortlist, e6, st.shortlist);
    var s6 := Record(s5, FinalShortlist, e6, [st.shortlist]);
    var e7 := [LogEntry(PricingStarted, Info), LogEntry(PricingSummary(st.priced), Success)];
    LogAdvances(s6, FinalShortlist, e7);
    var s7 := Record(s6, FinalShortlist, e7, []);
    var s8 := Complete(s7, st.final);
    CompleteAdvances(s7, st.final);
    AdvancingCons(s7, [s8]);
    AdvancingCons(s6, [s7, s8]);
    AdvancingCons(s5, [s6, s7, s8]);
    AdvancingCons(prev, [s5, s6, s7, s8]);
  }

  /** Recording the spec filter's result advances the run. */
  lemma SpecRecordedAdvances(c3: Controller, st: Stages)
    requires !st.SpecThrew? && Pipeline.PartitionOf(st.deadline.active, st.spec)
    requires c3.executing && c3.phase == Step2SpecFilter
    requires ChainPartition(c3.candidates, c3.stepStates) && |c3.stepStates| > 0
    requires Last(c3.stepStates) == st.deadline
    ensures Advance(c3, SpecRecorded(c3, st))
  {
    var sp := st.spec;
    StageAdvances(c3, Step2SpecFilter, [LogEntry(SpecSummary(|sp.active|, |sp.eliminated|), Success)], sp);
  }

  /** The context step advances the run. */
  lemma ContextLoggedAdvances(s3: Controller, st: Stages)
    requires !st.SpecThrew?
    requires s3.executing && s3.phase == Step2SpecFilter && ChainPartition(s3.candidates, s3.stepStates)
    ensures Advance(s3, ContextLogged(s3, st))
  {
    LogAdvances(s3, Step2SpecFilter,
                [LogEntry(PreparingContext, Info), LogEntry(AnalyzingRemaining(|st.spec.active|), Info),
                 LogEntry(ContextPrepared, Success)]);
  }

  /** The steps from the spec filter's result to the start of scoring advance the run. */
  lemma MiddleSteps(prev: Controller, c3: Controller, st: Stages)
    requires !st.SpecThrew? && Pipeline.PartitionOf(st.deadline.active, st.spec)
    requires Advance(prev, c3) && prev.phase == Step1DeadlineFilter
    requires c3.executing && c3.phase == Step2SpecFilter
    requires ChainPartition(c3.candidates, c3.stepStates) && |c3.stepStates| > 0
    requires Last(c3.stepStates) == st.deadline
    ensures var s3 := SpecRecorded(c3, st);
            var s4 := ContextLogged(s3, st);
            var s5pre := ScoringBegun(s4);
            && Advance(prev, s3) && Advance(s3, s4) && Advance(s4, s5pre)
            && s5pre.executing && s5pre.phase == Step3Scoring && s5pre.candidates == c3.candidates
            && s5pre.finalSelection == c3.finalSelection
            && ChainPartition(s5pre.candidates, s5pre.stepStates) && |s5pre.stepStates| > 0
            && Last(s5pre.stepStates) == st.spec
  {
    SpecRecordedAdvances(c3, st);
    var s3 := SpecRecorded(c3, st);
    AdvanceCompose(prev, c3, s3);
    ContextLoggedAdvances(s3, st);
    var s4 := ContextLogged(s3, st);
    LogAdvances(s4, Step3Scoring, [LogEntry(ScoringStarted, Info)]);
  }

  /** From the spec filter's result on, the run advances and ends Completed or caught. */
  lemma MiddleAdvances(prev: Controller, c3: Controller, st: Stages)
    requires !st.SpecThrew? && Pipeline.PartitionOf(st.deadline.active, st.spec)
    requires st.Finished? ==>
               Pipeline.PartitionOf(st.spec.active, st.scoring) && Pipeline.PartitionOf(st.scoring.active, st.shortlist)
    requires Advance(prev, c3) && prev.phase == Step1DeadlineFilter
    requires c3.executing && c3.phase == Step2SpecFilter && c3.finalSelection.None?
    requires ChainPartition(c3.candidates, c3.stepStates) && |c3.stepStates| > 0
    requires Last(c3.stepStates) == st.deadline
    ensures var r := Middle(c3, st);
            && |r| > 0
            && Advancing([prev] + r)
            && !Last(r).executing
            && (Last(r).phase == Completed <==> st.Finished?)
            && (Last(r).phase == Completed || Last(r).phase == NotStarted)
            && (Last(r).finalSelection.Some? ==> Last(r).phase == Completed)
  {
    MiddleSteps(prev, c3, st);
    var s3 := SpecRecorded(c3, st);
    var s4 := ContextLogged(s3, st);
    var s5pre := ScoringBegun(s4);
    if st.ScoringThrew? {
      CatchAdvances(s4, s5pre);
      AdvancingCons(s3, [s4, Catch(s5pre)]);
      AdvancingCons(prev, [s3, s4, Catch(s5pre)]);
    } else {
      var fin := Finish(s5pre, st);
      FinishAdvances(s4, s5pre, st);
      AdvancingCons(s3, [s4] + fin);
      AdvancingCons(prev, [s3] + ([s4] + fin));
    }
  }

  /**
   * The shape of a run from the start state `s` over stages that chain:
   * each step advances the one before it, and the run ends Completed
   * exactly when every stage ran, NotStarted after a caught error.
   */
  lemma TraceShape(s: Controller, st: Stages)
    requires s == Start(s) && Chained(s.candidates, st)
    ensures var t := [s] + TraceOf(s, st);
            && Shaped(t)
            && (Last(t).phase == Completed <==> st.Finished?)
  {
    EarlyAdvances(s, st);
    var e := Early(s, st);
    if st.SpecThrew? {
      CatchAdvances(e[1], e[2]);
      AdvancingCons(e[0], [e[1], Catch(e[2])]);
      AdvancingCons(s, [e[0], e[1], Catch(e[2])]);
    } else {
      var m := Middle(e[2], st);
      MiddleAdvances(e[1], e[2], st);
      AdvancingCons(e[0], [e[1]] + m);
      AdvancingCons(s, [e[0]] + ([e[1]] + m));
    }
  }

  /** A finished run's last snapshot holds the five step states and the stages' final selection. */
  lemma TraceFinal(s: Controller, st: Stages)
    requires s.stepStates == [] && st.Finished?
    ensures var f := Last(TraceOf(s, st));
            && f.stepStates == [st.load, st.deadline, st.spec, st.scoring, st.shortlist]
            && f.finalSelection == st.final
            && (st.final.Some? ==> f.selected == Some(st.final.value.sfp))
  {
    var e := Early(s, st);
    assert e[2].stepStates == [st.load, st.deadline];
    var m := Middle(e[2], st);
    assert Last(TraceOf(s, st)) == Last(m);
  }

  /** A run's steps end Completed only when every stage ran, and then select the first shortlisted SFP. */
  lemma TraceSelects(s: Controller, st: Stages)
    requires s == Start(s) && Chained(s.candidates, st) && SelectsFirst(st)
    ensures var f := Last(TraceOf(s, st));
            f.phase == Completed ==> SelectsFirstShortlisted(f)
  {
    TraceShape(s, st);
    assert Last([s] + TraceOf(s, st)) == Last(TraceOf(s, st));
    if st.Finished? {
      TraceFinal(s, st);
    }
  }

  // ------------------------------------------------------------ outcomes

  /**
   * The shape of a started run: it begins in the start state, every
   * snapshot but the last is still executing, each step advances the one
   * before it, and the run ends either Completed or, after a caught
   * error, NotStarted; a final selection is only ever made by a
   * completed run.
   */
  lemma RunShape(c: Controller, catalog: seq<Sku>, now: int)
    requires Starts(c)
    ensures var t := RunTrace(c, catalog, now);
            && t[0] == Start(c)
            && Shaped(t)
  {
    TraceShape(Start(c), RunStages(catalog, now, c.candidates));
  }

  /**
   * A started run leaves the controller idle, Completed or (after a
   * caught error) NotStarted, with its log opening on the start entry;
   * a final selection is only ever present after a completed run.
   */
  lemma ExecuteWorkflowEnds(c: Controller, catalog: seq<Sku>, now: int)
    requires Starts(c)
    ensures var r := ExecuteWorkflow(c, catalog, now);
            && !r.executing && (r.phase == Completed || r.phase == NotStarted)
            && (r.finalSelection.Some? ==> r.phase == Completed)
  {
    RunShape(c, catalog, now);
  }

  /** No run changes the candidates. */
  lemma RunKeepsCandidates(c: Controller, catalog: seq<Sku>, now: int)
    ensures Last(RunTrace(c, catalog, now)).candidates == c.candidates
  {
    if Starts(c) {
      RunShape(c, catalog, now);
      AdvancingLogs(RunTrace(c, catalog, now));
    }
  }

  /** A started run ends where its steps end. */
  lemma RunLast(c: Controller, catalog: seq<Sku>, now: int)
    requires Starts(c)
    ensures Last(RunTrace(c, catalog, now)) == Last(TraceOf(Start(c), RunStages(catalog, now, c.candidates)))
  {
  }

  lemma ExecuteWorkflowLogsStart(c: Controller, catalog: seq<Sku>, now: int)
    requires Starts(c)
    ensures var r := ExecuteWorkflow(c, catalog, now);
            |r.logs| > 0 && r.logs[0] == LogEntry(WorkflowStarted(|c.candidates|), Success)
  {
    var t := RunTrace(c, catalog, now);
    RunShape(c, catalog, now);
    AdvancingLogs(t);
    var r := Last(t);
    assert t[0].logs == [LogEntry(WorkflowStarted(|c.candidates|), Success)];
    assert r.logs[..1] == t[0].logs;
    assert r.logs[0] == r.logs[..1][0];
  }

  /**
   * Single flight (line 57): a call of `executeWorkflow` made while a run
   * is in flight, at any snapshot before its end, changes nothing.
   */
  lemma InFlightCallIgnored(c: Controller, catalog: seq<Sku>, now: int, later: int, i: int)
    requires Starts(c)
    requires 0 <= i < |RunTrace(c, catalog, now)| - 1
    ensures var t := RunTrace(c, catalog, now);
            ExecuteWorkflow(t[i], catalog, later) == t[i]
  {
    RunShape(c, catalog, now);
    AdvancingExecuting(RunTrace(c, catalog, now), i);
  }

  /** Neither the spec filter nor the scoring step throws. */
  predicate RunCompletes(c: Controller, catalog: seq<Sku>, now: int) {
    var spec := Pipeline.SpecStage(Pipeline.DeadlineStage(now, c.candidates).active);
    spec.Ok? && Pipeline.ScoringStage(catalog, spec.value.active).Ok?
  }

  /** A started run reaches Completed exactly when no stage throws; otherwise it is caught. */
  lemma RunCompletesIff(c: Controller, catalog: seq<Sku>, now: int)
    requires Starts(c)
    ensures Last(RunTrace(c, catalog, now)).phase == Completed <==> RunCompletes(c, catalog, now)
  {
    TraceShape(Start(c), RunStages(catalog, now, c.candidates));
  }

  /**
   * With every candidate's requirements, description and title readable,
   * a started run completes, whatever the catalogue.
   */
  lemma ReadableRunCompletes(c: Controller, catalog: seq<Sku>, now: int)
    requires Starts(c)
    requires forall i :: 0 <= i < |c.candidates| ==> Readable(c.candidates[i])
    ensures ExecuteWorkflow(c, catalog, now).phase == Completed
  {
    ReadableStagesSucceed(catalog, now, c.candidates);
    RunCompletesIff(c, catalog, now);
  }

  /** Neither throwing stage throws on readable SFPs. */
  lemma ReadableStagesSucceed(catalog: seq<Sku>, now: int, all: seq<Sfp>)
    requires forall i :: 0 <= i < |all| ==> Readable(all[i])
    ensures var spec := Pipeline.SpecStage(Pipeline.DeadlineStage(now, all).active);
            spec.Ok? && Pipeline.ScoringStage(catalog, spec.value.active).Ok?
  {
    var d := Pipeline.DeadlineStage(now, all);
    forall i | 0 <= i < |d.active|
      ensures Readable(d.active[i])
    {
      assert d.active[i] in all;
    }
    var spec := Pipeline.SpecStage(d.active);
    assert spec.Ok?;
    forall i | 0 <= i < |spec.value.active|
      ensures Readable(spec.value.active[i])
    {
      assert spec.value.active[i] in d.active;
    }
  }

  /**
   * The final controller of a completed run, read through its five step
   * states (load, deadline, spec, scoring, shortlist): a final selection
   * exists exactly when some SFP passed the score threshold, and it is
   * the first shortlisted SFP, which also becomes the selected SFP.
   */
  ghost predicate SelectsFirstShortlisted(f: Controller) {
    && |f.stepStates| == 5
    && (f.finalSelection.Some? <==> |f.stepStates[3].active| > 0)
    && (f.finalSelection.Some? ==>
          && |f.stepStates[4].active| > 0
          && f.finalSelection.value.sfp == f.stepStates[4].active[0]
          && f.selected == Some(f.stepStates[4].active[0]))
  }

  /**
   * After a completed run, a final selection exists exactly when some SFP
   * passed the score threshold, and it is the first shortlisted SFP.
   */
  lemma ExecuteWorkflowSelects(c: Controller, catalog: seq<Sku>, now: int)
    requires Starts(c)
    ensures var r := ExecuteWorkflow(c, catalog, now);
            r.phase == Completed ==> SelectsFirstShortlisted(r)
  {
    var st := RunStages(catalog, now, c.candidates);
    RunStagesSelectFirst(catalog, now, c.candidates);
    TraceSelects(Start(c), st);
    RunLast(c, catalog, now);
  }

  // ------------------------------------------------------ reset and run

  /**
   * After a reset, a call with candidates starts a run: it is not ignored
   * as in flight, its log opens with the start entry, and it ends idle,
   * Completed or NOT_STARTED.
   */
  lemma RunAfterReset(c: Controller, catalog: seq<Sku>, now: int)
    requires |c.candidates| > 0
    ensures Starts(ResetWorkflow(c))
    ensures var r := ExecuteWorkflow(ResetWorkflow(c), catalog, now);
            && |r.logs| > 0 && r.logs[0] == LogEntry(WorkflowStarted(|c.candidates|), Success)
            && !r.executing && (r.phase == Completed || r.phase == NotStarted)
  {
    var z := ResetWorkflow(c);
    ExecuteWorkflowLogsStart(z, catalog, now);
    ExecuteWorkflowEnds(z, catalog, now);
  }
}
